=== FILE: README.md ===
# Barangay administration front end — a Dafny model

This project models the administrative web front end of a barangay (village) office. That front end is a React single-page application backed by a remote REST API. The model covers six parts:

- **Document requests page**:
  - filtering the request list by search term and status;
  - the status-change, e-mail-flag and delete handlers and their effect on the list and the status banner;
  - extracting the receipt image id from a Google Drive link;
  - which action buttons each request offers;
  - the details handed to the certificate composer.
- **Certificate composer**:
  - the certification text, with its placeholders for missing resident data;
  - the purpose and issuance lines;
  - the signature pad as a state machine over mouse and touch events;
  - PDF generation, and e-mailing the certificate followed by a status update.
- **Dashboard**: the gender and document-status pie charts (find-then-increment tallies), the age bar chart, the monthly request line chart and the "pending approvals" figure.
- **Residents page**: turning the stored record into a list, the Pending/Accepted partition, the notification badge and the accept action.
- **Officials page**: the add-official form and its required-field check, the two-step delete, and the status badge class.
- **Login and sidebar**: the login validator and session write, the sidebar's label-to-path rule, logout, and the route table.

The model is made of pure functions over immutable datatypes:

- HTTP replies, the clock (`CalendarDate`) and the canvas encoding are parameters.
- A request that is sent is recorded as data in the result.
- JavaScript's falsy `||`, template interpolation of `undefined` and the `if (res)` truthiness test are written out in `Js` and `Api`.

Modules:

| module | file | role |
|---|---|---|
| `Wrappers` | wrappers.dfy | `Option` |
| `Seqs` | seqs.dfy | generic `Filter`, `Count`, subsequence |
| `Text` | text.dfy | ASCII `toLowerCase`, `includes`, `trim`, decimals, splitting |
| `Js` | js.dfy | falsy `||`, rendering, interpolation |
| `Dates` | dates.dfy | month names, the en-US long date and its parser |
| `Records` | records.dfy | the `Document` record and the update spread |
| `Tally` | tally.dfy | the find-then-increment histogram used by both pie charts |
| `Certificate` | certificate.dfy | `Cert.tsx` |
| `Documents` | documents.dfy | `Document.tsx` |
| `Dashboard` | dashboard.dfy | `Dashboard.tsx` |
| `Api` | api.dfy | what `postData`/`putData`/`deleteData` hand back |
| `Residents` | residents.dfy | `Residents.tsx` |
| `Officials` | officials.dfy | `Officials.tsx` |
| `Auth` | auth.dfy | `Login.tsx` |
| `Navigation` | navigation.dfy | `Sidebar.tsx` and the routes of `App.tsx` |

### Two behaviours of the code worth knowing

- **The residents list.** The list is built as `{ resident_id: key, ...record }`. The spread comes last, so a stored record that carries its own `resident_id` keeps that id instead of its key. Ids equal keys only when no record carries one (`Residents.IdsAreKeys`).
- **Two status vocabularies on the documents page.** The table row moves a pending request to "Processing". The modal's footer moves it to "Approved" and offers Download and Send Email only for "Approved". The certificate composer appears only for "Processing". Approving from the modal therefore leaves a request that shows neither the composer nor the table's e-mail button. `Documents.StatusVocabulariesDiverge` states this.

## Model

| member | source | states |
|---|---|---|
| `Documents.FilterDocuments` | frontend/src/pages/Document.tsx:196-202 | the filtered list keeps exactly the documents that pass both the search and the status test, each as often as in the input, in their original order (a subsequence); when every document passes, the list is unchanged |
| `Documents.KeepIff` | frontend/src/pages/Document.tsx:197-200 | a document is kept iff the status filter is "All" or equals its status, and the lower-cased term occurs in the lower-cased requester name, `documentType` or `document_type` (a missing field counts as "") |
| `Documents.EmptySearchKeepsAll` | frontend/src/pages/Document.tsx:196-202 | an empty term with the "All" filter lists every document in order |
| `Documents.StatusChangePatch` | frontend/src/pages/Document.tsx:71-80 | the update carries the new status; an approval date is added iff the new status is "Completed", and that date reads back as today |
| `Documents.EmailPatch` | frontend/src/pages/Document.tsx:113-118 | the update sets `email_sent` to true with today's long-form date as the send date, and touches neither status nor approval date |
| `Documents.EmailPatchDateReadsBack` | frontend/src/pages/Document.tsx:113-118 | the stored send date reads back as the day the e-mail was sent |
| `Documents.UpdateById` | frontend/src/pages/Document.tsx:87-91 | same length and ids; documents with the given id receive the patch and all others are unchanged |
| `Documents.UpdateByIdIdempotent` | frontend/src/pages/Document.tsx:87-91 | applying the same update twice equals applying it once |
| `Documents.DeleteById` | frontend/src/pages/Document.tsx:156 | the result keeps exactly the documents with another id, in order, and is shorter by the number of documents with that id |
| `Documents.DeleteAfterUpdate` | frontend/src/pages/Document.tsx:87-91 | deleting after updating the same id gives the same list as deleting alone |
| `Documents.Settle` | frontend/src/pages/Document.tsx:85-106 | a confirmed reply applies the change and shows the success banner; a reply without `success` changes nothing; a thrown error keeps the list and shows the error banner with the message, or "Unknown error" |
| `Documents.HandleStatusChange` | frontend/src/pages/Document.tsx:68-107 | the list changes only on a confirmed reply, and then by the status patch; the banner names the new status in lower case; an unconfirmed reply shows no banner; a thrown request shows "Error updating document status: " and the error's message |
| `Documents.HandleSendEmail` | frontend/src/pages/Document.tsx:110-145 | the list changes only on a confirmed reply, and then by the e-mail patch, with "Email notification sent successfully"; an unconfirmed reply shows no banner; a thrown request shows "Error sending email: " and the error's message |
| `Documents.HandleDeleteDocument` | frontend/src/pages/Document.tsx:148-171 | the list changes only on a confirmed reply, and then by removing that id, with "Document deleted successfully"; an unconfirmed reply shows no banner; a thrown request shows "Error deleting document: " and the error's message |
| `Documents.SendEmailChangesOnlyEmailFields` | frontend/src/pages/Document.tsx:113-129 | after a confirmed e-mail update, every document keeps its status, approval date and identity; only the e-mail fields of matching documents change |
| `Documents.ReceiptId` | frontend/src/pages/Document.tsx:177-181 | a result exists iff some "id=" is followed by a non-'&' character; it is the longest run of non-'&' characters at the leftmost such position, non-empty and free of '&' |
| `Documents.ViewImageId` | frontend/src/pages/Document.tsx:174-184 | when the receipt's file includes "id=" and the pattern matches, the image id becomes the captured id; otherwise it stays as it was |
| `Documents.ReceiptIdExample` | frontend/src/pages/Document.tsx:178 | an empty "id=" is skipped: "?id=&id=7a&x" yields "7a" |
| `Documents.RowActionsByStatus` | frontend/src/pages/Document.tsx:424-458 | every row offers view and delete; send-email iff Completed and not yet e-mailed; Processing/Rejected iff Pending |
| `Documents.ModalActionsByStatus` | frontend/src/pages/Document.tsx:691-750 | the detail modal always offers Close; Download iff Approved; Send Email iff Approved and not yet e-mailed; Approve/Reject iff Pending; never View or Delete |
| `Documents.StatusVocabulariesDiverge` | frontend/src/pages/Document.tsx:668-741 | for a pending request the table offers "Processing" and the modal "Approved"; only the former shows the certificate composer |
| `Documents.EmailActionGoneAfterSend` | frontend/src/pages/Document.tsx:424 | once the e-mail update is confirmed, that row no longer offers to send the e-mail |
| `Documents.DeliveryClosesRequest` | frontend/src/components/Cert.tsx:270-274 | the delivery update leaves a request Completed and e-mailed, so it offers neither status changes nor the e-mail button |
| `Documents.CertificateDetails` | frontend/src/pages/Document.tsx:676-682 | the composer receives the document's id; a non-empty requester name is passed as it is, otherwise the name falls back to "first last"; e-mail, type and resident id fall back through the alternatives to "" |
| `Documents.NamelessRequester` | frontend/src/pages/Document.tsx:677 | with no name fields the composer is given "undefined undefined", never "" |
| `Records.ApplyPatch` | frontend/src/pages/Document.tsx:89 | the spread overrides exactly the fields the patch carries; each field the patch leaves out, and every field it cannot carry, keeps its value |
| `Records.ApplyPatchIdempotent` | frontend/src/pages/Document.tsx:89 | spreading the same patch twice equals spreading it once |
| `Dates.LongDateRoundTrip` | frontend/src/pages/Document.tsx:77-79 | an en-US long date ("October 9, 2026") parses back to the date it was made from |
| `Dates.LongDateInjective` | frontend/src/pages/Document.tsx:115-117 | two different dates never render as the same text |
| `Js.Or` | frontend/src/components/Cert.tsx:187 | a falsy value (missing, 0 or "") yields the placeholder; any other value yields its rendering; a non-empty placeholder never gives "" |
| `Certificate.CertificationFrames` | frontend/src/components/Cert.tsx:187 | the certification sentence opens with the requester's name and closes with the residency year or its placeholder |
| `Certificate.CertificationWithoutResident` | frontend/src/components/Cert.tsx:187 | without resident data, all four placeholders appear in the certification sentence |
| `Certificate.FalsyAttributesReadAsMissing` | frontend/src/components/Cert.tsx:187 | an age of 0 or an empty attribute prints the same placeholder as a missing one |
| `Certificate.CertificationExample` | frontend/src/components/Cert.tsx:187 | a complete resident fills every slot of the sentence |
| `Certificate.PurposeRoundTrip` | frontend/src/components/Cert.tsx:193 | the requested document type can be read back from the purpose sentence |
| `Certificate.IssuanceLineRoundTrip` | frontend/src/components/Cert.tsx:198-203 | the issuance line determines the day, month and year it was issued |
| `Certificate.Coordinates` | frontend/src/components/Cert.tsx:91-106 | without a canvas the point is (0,0); a mouse event gives its offsets; a touch gives the client point relative to the canvas corner |
| `Certificate.TouchTranslationInvariant` | frontend/src/components/Cert.tsx:94-99 | moving the touch and the canvas by the same amount gives the same canvas point |
| `Certificate.StartDrawing` | frontend/src/components/Cert.tsx:67-73 | on a mounted pad a press starts a stroke at the pressed point with an empty path and keeps the ink, the signature and the canvas; on an unmounted pad it does nothing |
| `Certificate.Draw` | frontend/src/components/Cert.tsx:75-81 | while drawing on a mounted pad a move extends the path by one segment and the stroke paints the whole path, with drawing still on and the same canvas; otherwise nothing changes |
| `Certificate.FinishDrawing` | frontend/src/components/Cert.tsx:83-88 | a release on a mounted pad stops drawing and stores the snapshot `"data:image/png;base64," + encoded`, from which the payload reads back; the ink, pen and path are unchanged |
| `Certificate.ClearSignature` | frontend/src/components/Cert.tsx:109-118 | clearing a mounted pad erases the ink and the signature and leaves the drawing flag, the pen, the path and the canvas as they were |
| `Certificate.MoveAfterClearRepaintsStroke` | frontend/src/components/Cert.tsx:75-118 | a move right after a clear, during a stroke, repaints every segment of that stroke |
| `Certificate.ClearMidStrokeExample` | frontend/src/components/Cert.tsx:67-118 | press at a, move to b, clear, move to c: the segment a-b is visible again |
| `Certificate.ClearThenPressStartsBlank` | frontend/src/components/Cert.tsx:67-118 | a press after a clear starts from a blank canvas and an empty path |
| `Certificate.SignatureWithoutStroke` | frontend/src/components/Cert.tsx:313-316 | a release without any stroke still stores a (blank) signature |
| `Certificate.ClearIdempotent` | frontend/src/components/Cert.tsx:109-118 | clearing twice is clearing once |
| `Certificate.SignatureFollowsHistory` | frontend/src/components/Cert.tsx:67-118 | after any event sequence, a signature is held iff the last release or clear was a release (or, when there was neither, one was held before) |
| `Certificate.UnmountedPadIsInert` | frontend/src/components/Cert.tsx:68 | without a canvas no event sequence changes the pad |
| `Certificate.GeneratePdf` | frontend/src/components/Cert.tsx:121-231 | a PDF exists iff there is a signature and rendering succeeds; it is laid out from the given details, resident and date and embeds the signature image; otherwise the matching error message |
| `Certificate.GeneratedPdfText` | frontend/src/components/Cert.tsx:131-223 | a generated certificate prints the lines of these details, this resident and today's date |
| `Certificate.NoRenderWithoutSignature` | frontend/src/components/Cert.tsx:122-125 | without a signature the outcome does not depend on the renderer |
| `Certificate.ClearThenGenerateFails` | frontend/src/components/Cert.tsx:109-125 | generating right after clearing the pad reports the missing signature |
| `Certificate.EmailMessageRoundTrip` | frontend/src/components/Cert.tsx:256 | the e-mail message names exactly the requester |
| `Certificate.DeliveredPatch` | frontend/src/components/Cert.tsx:270-274 | the follow-up update marks the request Completed and e-mailed, with a send date that reads back as today |
| `Certificate.SendEmailWithPdf` | frontend/src/components/Cert.tsx:234-285 | without a signature nothing is sent; the e-mail is posted iff a PDF was generated; the status update follows iff the e-mail endpoint reports success; a failed render shows only the e-mail error, a failed e-mail keeps "PDF generated successfully!" beside "Failed to send email. Please try again.", and a failed status update keeps "Email sent successfully!" beside that error |
| `Certificate.EmailFormContents` | frontend/src/components/Cert.tsx:253-257 | the posted form goes to the requester with the fixed subject, the requester's name in the message and the generated certificate as "barangay_certification.pdf" |
| `Tally.Bump` | frontend/src/pages/Dashboard.tsx:104-109 | one step adds one to the named entry (appending it with value 1 if new), keeps names distinct and leaves every other name's value unchanged |
| `Tally.Count` | frontend/src/pages/Dashboard.tsx:135-144 | the tally has distinct names, each drawn from the input with value at least one, values summing to the input length, and each name's value is its number of occurrences |
| `Tally.CountCoversKeys` | frontend/src/pages/Dashboard.tsx:135-144 | every key that occurs gets a slice |
| `Dashboard.NormalizeGenderCases` | frontend/src/pages/Dashboard.tsx:100-102 | "Female" iff the lower-cased text contains "female"; "Male" iff it contains "male" but not "female"; otherwise the text is kept |
| `Dashboard.NormalizeGenderIdempotent` | frontend/src/pages/Dashboard.tsx:100-102 | normalising twice equals normalising once |
| `Dashboard.GenderKey` | frontend/src/pages/Dashboard.tsx:98-99 | a resident contributes a key iff its gender is present and not blank after trimming |
| `Dashboard.GenderData` | frontend/src/pages/Dashboard.tsx:97-112 | the gender slices have distinct names and positive values; each gender's value is the number of residents whose trimmed, normalised gender it is; the values sum to the number of residents with a non-blank gender |
| `Dashboard.AgeBucketBounds` | frontend/src/pages/Dashboard.tsx:126-130 | the five buckets are ≤18, 19–30, 31–45, 46–60 and ≥61; negative ages fall in the first |
| `Dashboard.AgeBucketMonotone` | frontend/src/pages/Dashboard.tsx:126-130 | an older resident never falls in an earlier bar |
| `Dashboard.AgeCounts` | frontend/src/pages/Dashboard.tsx:123-132 | each bar counts exactly the residents with a parsed age in its bucket, and the bars add up to the residents with a parsed age |
| `Dashboard.AgeRanges` | frontend/src/pages/Dashboard.tsx:115-132 | five bars labelled "0-18" … "61+" in order, with those counts and that total |
| `Dashboard.DocumentStatusData` | frontend/src/pages/Dashboard.tsx:135-144 | one slice per distinct status, whose value is the number of documents with that status (so positive), summing to the number of documents |
| `Dashboard.PendingApprovalsIsProcessingSlice` | frontend/src/pages/Dashboard.tsx:243 | the pending-approvals figure equals the "Processing" slice of the status chart |
| `Dashboard.MonthlyDocumentData` | frontend/src/pages/Dashboard.tsx:147-160 | twelve points named Jan…Dec, each counting the documents dated in that month of the current year |
| `Dashboard.MonthlyTotal` | frontend/src/pages/Dashboard.tsx:147-160 | the twelve points add up to the documents dated in the current year, hence to at most the number of documents |
| `Api.CaughtErrorIsTruthy` | frontend/src/utils/postData.ts:13-21 | the error object a failed request returns passes an `if (res)` test, unlike a falsy body |
| `Residents.ToList` | frontend/src/pages/Residents.tsx:13-18 | no data gives an empty list; otherwise one entry per key in key order, whose id is the record's own id if it has one and the key otherwise |
| `Residents.IdsAreKeys` | frontend/src/pages/Residents.tsx:13-18 | when no record carries its own id, the ids are exactly the keys |
| `Residents.Pending` | frontend/src/pages/Residents.tsx:20 | the pending list holds exactly the residents whose status is "Pending", each as often as in the list, in order |
| `Residents.Accepted` | frontend/src/pages/Residents.tsx:21 | the accepted list holds exactly the residents whose status is "Accepted", each as often as in the list, in order |
| `Residents.PartitionDisjoint` | frontend/src/pages/Residents.tsx:20-21 | no resident is in both lists, and one with any other status (or none) is in neither |
| `Residents.PartitionCounts` | frontend/src/pages/Residents.tsx:20-21 | pending, accepted and the rest together account for every entry exactly once |
| `Residents.PendingCount` | frontend/src/pages/Residents.tsx:23 | the count is the number of pending residents |
| `Residents.ShowsBadge` | frontend/src/pages/Residents.tsx:58 | the badge is shown iff some resident is pending |
| `Residents.AcceptResident` | frontend/src/pages/Residents.tsx:31-39 | accepting sends status "Accepted" for that id; the success alert (and reload) happens iff the helper's return is truthy, so it also fires on a caught error |
| `Residents.AcceptAlertsOnFailedRequest` | frontend/src/pages/Residents.tsx:35-37 | a failed request still shows "Resident accepted successfully" |
| `Residents.AcceptResidentChecked` | frontend/src/pages/Residents.tsx:31-39 | the same request, with the alert shown iff the server answered with a truthy body |
| `Residents.AcceptVersionsAgreeOnAnswers` | frontend/src/pages/Residents.tsx:35 | the two versions agree whenever the server answered, and differ only on a failed request |
| `Residents.AcceptedAfterAccept` | frontend/src/pages/Residents.tsx:31-39 | after a truthy reply the page reloads, and every record stored under the accepted key is listed as accepted |
| `Residents.ListChangesOnlyOnTruthyReply` | frontend/src/pages/Residents.tsx:31-39 | a failed request alerts success and reloads to the same list; a falsy reply neither alerts nor reloads, so the old list stays |
| `Residents.OwnIdMissesItsRecord` | frontend/src/pages/Residents.tsx:13-39 | a pending record listed under its own `resident_id`, when no record is stored under that id as a key, is still pending after it is accepted |
| `Residents.AcceptShrinksPending` | frontend/src/pages/Residents.tsx:20-39 | after a truthy reply the badge count drops by exactly the pending records stored under the accepted key |
| `Officials.HandleAdd` | frontend/src/pages/Officials.tsx:57-70 | the form is refused with "Please fill in all fields" iff position, start term, end term or resident id is empty; otherwise it is posted as is, and the modal closes iff the helper's return is truthy |
| `Officials.DefaultFormRefused` | frontend/src/pages/Officials.tsx:24-30 | the initial form has status "Active" and cannot be submitted untouched |
| `Officials.EachFieldRequired` | frontend/src/pages/Officials.tsx:58 | emptying any one required field refuses the form whatever the others hold |
| `Officials.StatusNotRequired` | frontend/src/pages/Officials.tsx:58 | the status field plays no part in the check |
| `Officials.HandleDelete` | frontend/src/pages/Officials.tsx:43-55 | with nothing selected nothing is sent; otherwise the resident's status is put back to "Accepted", then the official is deleted; the dialog closes iff the delete's return is truthy |
| `Officials.DeleteIgnoresPutOutcome` | frontend/src/pages/Officials.tsx:45-47 | the delete is sent and judged the same whatever the first request returned |
| `Officials.ResidentRestoredFirst` | frontend/src/pages/Officials.tsx:45-47 | the resident update precedes the official delete |
| `Officials.BadgeClassIff` | frontend/src/pages/Officials.tsx:140 | the class is "active" iff the status is exactly "Active" (so "active" is "inactive"), and "inactive" otherwise |
| `Auth.HandleLogin` | frontend/src/auth/Login.tsx:20-36 | an empty field gives "Please fill in all fields" before any credential check; only exactly admin@gmail.com/password writes the session (key "user") and reloads; any other pair gives "Invalid email or password" and leaves the session as it was |
| `Auth.UserRecordRoundTrip` | frontend/src/auth/Login.tsx:30 | the stored user record reads back as the email it was written for |
| `Auth.LoginStoresAdmin` | frontend/src/auth/Login.tsx:29-30 | after a successful login "user" holds a record naming the admin email, and no other key changes |
| `Auth.CredentialsAreCaseSensitive` | frontend/src/auth/Login.tsx:29 | a differently cased email is refused |
| `Navigation.OnNavClick` | frontend/src/components/Sidebar.tsx:41-48 | any label but "Logout" goes to "/" plus the lower-cased label and keeps the session; "Logout" goes to "/" and the session becomes the old one minus the "user" key |
| `Navigation.NavTarget` | frontend/src/components/Sidebar.tsx:17-21 | each of the five items, in order, targets the next route in the table, with "Logout" wrapping round to "/" |
| `Navigation.NavTargetsAreRoutes` | frontend/src/App.tsx:18-22 | every sidebar item lands on a route, and on the page it names; "Logout" lands on the login page |
| `Navigation.Route` | frontend/src/App.tsx:17-24 | a path has a page iff the route table lists it character for character, and the page is the one listed |
| `Navigation.LoginThenLogout` | frontend/src/components/Sidebar.tsx:44-46 | logging in and then out leaves the session as it was, minus "user" |
| `Navigation.RefusedLoginThenLogout` | frontend/src/auth/Login.tsx:33-34 | a refused login followed by logout is the same as logging out directly |

## Left out

- HTTP transport is not modelled. The requests, base URLs and multipart encoding are represented only by their recorded data and the caller-supplied replies (`Reply`, `Returned`, `renderOk`, `emailOk`, `updateOk`). `getData`'s loading and error states are also left out.
- React state, effects, re-renders and `window.location.reload` are not modelled. A reload is represented by the flag or state that triggers it.
- The `getAuth` redirect guards at the top of each page are not modelled, because frontend/src/utils/getAuth.js is not part of this model.
- jsPDF layout is not modelled: fonts, positions, line wrapping (`splitTextToSize`), the logo and seal images and opening the PDF tab. The certificate is the sequence of its text lines plus the signature image.
- Canvas pixels are not modelled. Ink is the set of segments painted since the last clear, and `toDataURL` is a data-URL prefix plus an encoded payload that the caller supplies.
- `closePath` in `finishDrawing` is not modelled. It only changes a path that is never stroked again, because the next stroke starts with `beginPath`.
- Certificate.Coordinates: the browser's coordinates are doubles; the model uses exact reals, so rounding in the touch subtraction is not modelled.
- Navigation.Route: the route table is compared character by character. React Router also matches case-insensitively, tolerates trailing slashes and percent-decodes the path; none of that is modelled. The sidebar only produces lower-case paths without a trailing slash, on which both comparisons agree.
- Residents.ListAfterAccept: the server is not part of this model (`Residents.StoreStatus` is its assumed behaviour). It is assumed to store the status in the record whose key is the id in the URL whenever the request does not throw, and the reload is assumed to fetch that store.
- Locale: dates use the English month names of the en-US long format. The issuance line's `toLocaleString('default', …)` is assumed to use the same names.
- Unicode case folding is not modelled. `toLowerCase` lower-cases ASCII letters only, and other characters are kept.
- `parseInt` on the resident's age is not modelled. The dashboard takes the parsed age, or its absence for NaN, as input. The same holds for `new Date(timestamp)`, whose year and month arrive already parsed.
- Js.Scalar: numbers from the API are modelled as integers, rendered as plain decimals. Fractional numbers ("34.5") and the exponent form JavaScript uses from 10^21 on ("1e+21") are not modelled.
- Floating point is not modelled: the chart percentages and colours, and the dashboard's other cards (total residents, officials, new this month), which only show lengths.
- Object key enumeration order is taken as given: the fetched residents record is the sequence of its keys in enumeration order.
- `formatDate` and the display-only columns are not modelled: names, contacts, payment method, upload time and the approval-date text.
- `Auth.UserRecord`: `JSON.stringify` escaping is not modelled. The record is defined only for emails without quotes, backslashes or control characters, which includes the one email the login ever stores.
- The receipt image is read through its `file` property. The declared type says it is a string, while the code reads `.file`, so the model takes the `file` value, or its absence, as input.
- The image-viewer modal's `viewImageUrl` and the `getStatusColor`/`getStatusIcon` styling switches are presentation only and are not modelled.

## Findings

| source | as written | input that shows it | evidently intended | confidence | as-written member | corrected member |
|---|---|---|---|---|---|---|
| frontend/src/pages/Residents.tsx:31-39 with frontend/src/utils/postData.ts:13-21 | `putData` catches a failed request and returns the error object; `handleAcceptResident` treats any truthy return as success | the PUT fails (network error or error status): `putData` returns the caught error, `if (res)` passes, and "Resident accepted successfully" is shown and the page reloads | show the success alert only when the server answered | medium, not executed | `Residents.AcceptResident`, with `Residents.AcceptAlertsOnFailedRequest` | `Residents.AcceptResidentChecked`, with `Residents.AcceptVersionsAgreeOnAnswers` |

=== FILE: api.dfy ===
/** The HTTP helpers `postData`, `putData` and `deleteData`: what a caller sees
    after awaiting one of them. The request itself is recorded by the callers. */
module Api {
  /** A helper either returns the response body, of which only its truthiness
      matters to the callers, or, when the request throws, the caught error
      object itself. */
  datatype Returned = Body(truthy: bool) | Caught

  /** `if (res)`: an error object is always truthy. */
  predicate IsTruthy(r: Returned) {
    r.Caught? || r.truthy
  }

  /** A failed request reads as success to an `if (res)` check. */
  lemma CaughtErrorIsTruthy()
    ensures IsTruthy(Caught)
    ensures !IsTruthy(Body(false))
  {
  }
}

=== FILE: auth.dfy ===
/** The login form's handler and the session store it writes. */
module Auth {
  import Wrappers
  import Text

  /** `sessionStorage`: key to stored text. */
  type Session = map<string, string>

  const AdminEmail := "admin@gmail.com"
  const AdminPassword := "password"
  const FillAllFields := "Please fill in all fields"
  const InvalidCredentials := "Invalid email or password"
  const UserKey := "user"

  /** Characters `JSON.stringify` would escape inside a string. */
  predicate PlainJsonText(s: string) {
    forall i :: 0 <= i < |s| ==> s[i] != '"' && s[i] != '\\' && s[i] >= ' '
  }

  const UserRecordPrefix := "{\"email\":\""
  const UserRecordSuffix := "\"}"

  /** `JSON.stringify({ email })` for an email that needs no escaping. */
  function UserRecord(email: string): (r: string)
    requires PlainJsonText(email)
    ensures |r| == |email| + |UserRecordPrefix| + |UserRecordSuffix|
  {
    UserRecordPrefix + email + UserRecordSuffix
  }

  /** Reads the email back out of a stored user record. */
  function ParseUserRecord(s: string): (r: Wrappers.Option<string>)
    ensures r.Some? ==> s == UserRecordPrefix + r.value + UserRecordSuffix
  {
    match Text.StripPrefix(UserRecordPrefix, s)
    case None => Wrappers.None
    case Some(rest) =>
      match Text.StripSuffix(UserRecordSuffix, rest)
      case None => Wrappers.None
      case Some(email) =>
        Text.StripPrefixJoin(UserRecordPrefix, s);
        Text.StripSuffixJoin(rest, UserRecordSuffix);
        Wrappers.Some(email)
  }

  /** The stored record gives back the email it was written for. */
  lemma UserRecordRoundTrip(email: string)
    requires PlainJsonText(email)
    ensures ParseUserRecord(UserRecord(email)) == Wrappers.Some(email)
  {
    var s := UserRecord(email);
    assert s[..|UserRecordPrefix|] == UserRecordPrefix;
    assert s[|UserRecordPrefix|..] == email + UserRecordSuffix;
    var rest := email + UserRecordSuffix;
    assert rest[|rest| - |UserRecordSuffix|..] == UserRecordSuffix;
    assert rest[..|rest| - |UserRecordSuffix|] == email;
  }

  lemma AdminEmailIsPlain()
    ensures PlainJsonText(AdminEmail)
  {
  }

  /** What submitting the form leaves: the error shown (None when the error line
      is untouched), the session, and whether the page reloads. */
  datatype LoginOutcome = LoginOutcome(error: Wrappers.Option<string>, session: Session, reloaded: bool)

  /** `handleLogin`: the emptiness check comes before the credential check. */
  function HandleLogin(email: string, password: string, session: Session): (o: LoginOutcome)
    ensures email == "" || password == "" ==> o == LoginOutcome(Wrappers.Some(FillAllFields), session, false)
    ensures o.session != session ==> email == AdminEmail && password == AdminPassword
    ensures o.reloaded <==> email == AdminEmail && password == AdminPassword
    ensures email == AdminEmail && password == AdminPassword
            ==> o.error.None? && o.session == session[UserKey := UserRecord(AdminEmail)]
    ensures email != "" && password != "" && !(email == AdminEmail && password == AdminPassword)
            ==> o == LoginOutcome(Wrappers.Some(InvalidCredentials), session, false)
  {
    if email == "" || password == "" then
      LoginOutcome(Wrappers.Some(FillAllFields), session, false)
    else if email == AdminEmail && password == AdminPassword then
      AdminEmailIsPlain();
      LoginOutcome(Wrappers.None, session[UserKey := UserRecord(email)], true)
    else
      LoginOutcome(Wrappers.Some(InvalidCredentials), session, false)
  }

  /** A successful login stores under "user" a record that reads back as the admin
      email, and touches no other key. */
  lemma LoginStoresAdmin(session: Session)
    ensures var s := HandleLogin(AdminEmail, AdminPassword, session).session;
            UserKey in s && ParseUserRecord(s[UserKey]) == Wrappers.Some(AdminEmail)
            && forall k :: k in session && k != UserKey ==> k in s && s[k] == session[k]
  {
    AdminEmailIsPlain();
    UserRecordRoundTrip(AdminEmail);
  }

  /** The credential check is exact: a differently cased email is refused. */
  lemma CredentialsAreCaseSensitive(session: Session)
    ensures HandleLogin("Admin@gmail.com", AdminPassword, session).error == Wrappers.Some(InvalidCredentials)
  {
    assert "Admin@gmail.com"[0] != AdminEmail[0];
  }
}

=== FILE: certificate.dfy ===
/** The certificate composer: the signature pad, the certificate text with its
    placeholder fallbacks, PDF generation gated on a signature, and e-mail delivery
    followed by the status update. */
module Certificate {
  import opened Wrappers
  import Text
  import opened Js
  import opened Dates
  import opened Records

  // ================================================================ inputs

  /** The `documentDetails` prop. */
  datatype Details = Details(
    requester_name: string,
    requester_email: string,
    documentId: string,
    document_type: string,
    residentId: string)

  /** The fetched resident; each attribute may be missing, a string or a number. */
  datatype ResidentInfo = ResidentInfo(
    age: Option<Scalar>,
    civil_status: Option<Scalar>,
    barangay: Option<Scalar>,
    yearsResidency: Option<Scalar>)

  /** `resident?.age` and friends: everything is undefined while the resident is not loaded. */
  function AgeOf(r: Option<ResidentInfo>): Option<Scalar> {
    if r.Some? then r.value.age else None
  }
  function CivilStatusOf(r: Option<ResidentInfo>): Option<Scalar> {
    if r.Some? then r.value.civil_status else None
  }
  function BarangayOf(r: Option<ResidentInfo>): Option<Scalar> {
    if r.Some? then r.value.barangay else None
  }
  function YearsResidencyOf(r: Option<ResidentInfo>): Option<Scalar> {
    if r.Some? then r.value.yearsResidency else None
  }

  // ================================================================ text

  const AgePlaceholder := "[Age]"
  const CivilStatusPlaceholder := "[Civil Status]"
  const AddressPlaceholder := "[Complete Address]"
  const ResidencyPlaceholder := "[Year of Residency]"
  const PurposePlaceholder := "[Purpose of the Certificate]"

  const PurposePrefix := "This certification is issued upon the request of the above-named individual for "
  const IssuancePrefix := "Issued this "
  const IssuancePlace := " at Barangay Lamintak Sur, Medellin, Cebu, Philippines."

  /** The certification paragraph. */
  function CertificationSentence(name: string, r: Option<ResidentInfo>): string {
    "This is to certify that " + name
    + ", " + Or(AgeOf(r), AgePlaceholder)
    + ", " + Or(CivilStatusOf(r), CivilStatusPlaceholder)
    + ", and a resident of " + Or(BarangayOf(r), AddressPlaceholder)
    + ", Barangay Lamintak Sur, Medellin, Cebu, has been a bonafide resident of this barangay since "
    + Or(YearsResidencyOf(r), ResidencyPlaceholder) + "."
  }

  /** The shape of the certification sentence with its fixed words abstracted:
      it opens with `l0 + n + l1` and closes with `x4 + l5`. */
  lemma SentenceFrame(l0: string, n: string, l1: string, x1: string, l2: string, x2: string,
                      l3: string, x3: string, l4: string, x4: string, l5: string)
    ensures Text.StripPrefix(l0 + n + l1, l0 + n + l1 + x1 + l2 + x2 + l3 + x3 + l4 + x4 + l5).Some?
    ensures Text.StripSuffix(x4 + l5, l0 + n + l1 + x1 + l2 + x2 + l3 + x3 + l4 + x4 + l5).Some?
  {
    var head := l0 + n + l1;
    var m := head + x1 + l2 + x2 + l3 + x3 + l4;
    var tail := x1 + l2 + x2 + l3 + x3 + l4 + x4 + l5;
    assert m + x4 + l5 == head + tail;
    Text.StripPrefixJoin(head, tail);
    assert m + x4 + l5 == m + (x4 + l5);
    Text.StripSuffixJoin(m, x4 + l5);
  }

  /** The sentence opens with the requester's name and closes with the residency year
      (or its placeholder), whatever the other attributes are. */
  lemma CertificationFrames(name: string, r: Option<ResidentInfo>)
    ensures Text.StripPrefix("This is to certify that " + name + ", ", CertificationSentence(name, r)).Some?
    ensures Text.StripSuffix(Or(YearsResidencyOf(r), ResidencyPlaceholder) + ".", CertificationSentence(name, r)).Some?
  {
    SentenceFrame("This is to certify that ", name, ", ", Or(AgeOf(r), AgePlaceholder), ", ",
                  Or(CivilStatusOf(r), CivilStatusPlaceholder), ", and a resident of ",
                  Or(BarangayOf(r), AddressPlaceholder),
                  ", Barangay Lamintak Sur, Medellin, Cebu, has been a bonafide resident of this barangay since ",
                  Or(YearsResidencyOf(r), ResidencyPlaceholder), ".");
  }

  /** With no resident loaded every attribute shows its placeholder. */
  lemma CertificationWithoutResident(name: string)
    ensures CertificationSentence(name, None)
         == "This is to certify that " + name + ", " + "[Age]" + ", " + "[Civil Status]"
          + ", and a resident of " + "[Complete Address]"
          + ", Barangay Lamintak Sur, Medellin, Cebu, has been a bonafide resident of this barangay since "
          + "[Year of Residency]" + "."
  {
    assert Or(AgeOf(None), AgePlaceholder) == "[Age]";
    assert Or(CivilStatusOf(None), CivilStatusPlaceholder) == "[Civil Status]";
    assert Or(BarangayOf(None), AddressPlaceholder) == "[Complete Address]";
    assert Or(YearsResidencyOf(None), ResidencyPlaceholder) == "[Year of Residency]";
  }

  /** A falsy attribute (`0`, `""`) reads exactly like a missing one. */
  lemma FalsyAttributesReadAsMissing(name: string, r: ResidentInfo, z: Scalar)
    requires IsFalsy(Some(z))
    ensures CertificationSentence(name, Some(r.(age := Some(z))))
         == CertificationSentence(name, Some(r.(age := None)))
    ensures CertificationSentence(name, Some(r.(civil_status := Some(z))))
         == CertificationSentence(name, Some(r.(civil_status := None)))
    ensures CertificationSentence(name, Some(r.(barangay := Some(z))))
         == CertificationSentence(name, Some(r.(barangay := None)))
    ensures CertificationSentence(name, Some(r.(yearsResidency := Some(z))))
         == CertificationSentence(name, Some(r.(yearsResidency := None)))
  {
  }

  /** The worked example: a fully known resident. */
  lemma CertificationExample()
    ensures CertificationSentence("Juan Dela Cruz",
              Some(ResidentInfo(Some(Num(34)), Some(Str("Single")), Some(Str("Purok 2")), Some(Num(2010)))))
         == "This is to certify that " + "Juan Dela Cruz" + ", " + "34" + ", " + "Single"
          + ", and a resident of " + "Purok 2"
          + ", Barangay Lamintak Sur, Medellin, Cebu, has been a bonafide resident of this barangay since "
          + "2010" + "."
  {
    assert Text.NatToString(34) == "34";
    assert Text.NatToString(2010) == "2010";
    var r := Some(ResidentInfo(Some(Num(34)), Some(Str("Single")), Some(Str("Purok 2")), Some(Num(2010))));
    assert Or(AgeOf(r), AgePlaceholder) == "34";
    assert Or(CivilStatusOf(r), CivilStatusPlaceholder) == "Single";
    assert Or(BarangayOf(r), AddressPlaceholder) == "Purok 2";
    assert Or(YearsResidencyOf(r), ResidencyPlaceholder) == "2010";
  }

  /** The purpose paragraph. */
  function PurposeSentence(documentType: string): string {
    PurposePrefix + (if documentType != "" then documentType else PurposePlaceholder) + "."
  }

  /** Reads the purpose back out of a purpose paragraph. */
  function ParsePurpose(s: string): Option<string> {
    match Text.StripPrefix(PurposePrefix, s)
    case None => None
    case Some(rest) => Text.StripSuffix(".", rest)
  }

  /** The purpose paragraph names the document type, or the placeholder when it is empty. */
  lemma PurposeRoundTrip(documentType: string)
    ensures ParsePurpose(PurposeSentence(documentType))
         == Some(if documentType == "" then PurposePlaceholder else documentType)
  {
    var x := if documentType != "" then documentType else PurposePlaceholder;
    assert PurposeSentence(documentType) == PurposePrefix + (x + ".");
    Text.StripPrefixJoin(PurposePrefix, x + ".");
    Text.StripSuffixJoin(x, ".");
  }

  /** "Issued this 9 of October, 2026 at Barangay Lamintak Sur, Medellin, Cebu, Philippines." */
  function IssuanceLine(d: CalendarDate): string {
    IssuancePrefix + Text.NatToString(d.day) + " of " + LongMonthNames[d.month] + ", "
    + Text.NatToString(d.year) + IssuancePlace
  }

  /** Reads day, month and year back out of an issuance line. */
  function ParseIssuanceLine(s: string): Option<CalendarDate> {
    match Text.StripPrefix(IssuancePrefix, s)
    case None => None
    case Some(r1) =>
      match Text.StripSuffix(IssuancePlace, r1)
      case None => None
      case Some(mid) =>
        match Text.SplitAt(mid, ' ')
        case None => None
        case Some((dayText, r2)) =>
          match Text.StripPrefix("of ", r2)
          case None => None
          case Some(r3) =>
            match Text.SplitAt(r3, ',')
            case None => None
            case Some((monthName, r4)) =>
              match Text.StripPrefix(" ", r4)
              case None => None
              case Some(yearText) =>
                match (Text.ParseNat(dayText), MonthOfName(monthName), Text.ParseNat(yearText))
                case (Some(day), Some(m), Some(year)) => Some(CalendarDate(year, m, day))
                case _ => None
  }

  /** The issuance line spells out exactly the date it was made from. */
  lemma IssuanceLineRoundTrip(d: CalendarDate)
    ensures ParseIssuanceLine(IssuanceLine(d)) == Some(d)
  {
    MonthNamesWellFormed();
    var dayText := Text.NatToString(d.day);
    var name := LongMonthNames[d.month];
    var yearText := Text.NatToString(d.year);
    var r4 := " " + yearText;
    var r3 := name + [','] + r4;
    var r2 := "of " + r3;
    var mid := dayText + [' '] + r2;
    assert IssuanceLine(d) == IssuancePrefix + (mid + IssuancePlace);
    Text.StripPrefixJoin(IssuancePrefix, mid + IssuancePlace);
    Text.StripSuffixJoin(mid, IssuancePlace);
    Text.DigitsHaveNo(dayText, ' ');
    Text.SplitAtJoin(dayText, ' ', r2);
    Text.StripPrefixJoin("of ", r3);
    Text.SplitAtJoin(name, ',', r4);
    Text.StripPrefixJoin(" ", yearText);
    Text.ParseNatRoundTrip(d.day);
    Text.ParseNatRoundTrip(d.year);
    MonthOfNameInverse(d.month);
  }

  /** The text lines of the certificate page, top to bottom. */
  function CertificateLines(details: Details, r: Option<ResidentInfo>, today: CalendarDate): seq<string> {
    [ "Republic of the Philippines",
      "Province of Cebu",
      "City/Municipality of Medellin",
      "Barangay Lamintak Sur",
      "Office of the Punong Barangay",
      "BARANGAY CERTIFICATION",
      "To Whom It May Concern:",
      CertificationSentence(details.requester_name, r),
      PurposeSentence(details.document_type),
      IssuanceLine(today),
      "Certified by:",
      "Hon. Ambrosio Tahadlangit",
      "Barangay Captain" ]
  }

  // ================================================================ signature pad

  /** Canvas coordinates are CSS pixels, fractional in general. */
  datatype Point = Point(x: real, y: real)

  /** `canvas.getBoundingClientRect()`, as far as the pad uses it. */
  datatype Rect = Rect(left: real, top: real)

  /** A mouse event carries offsets relative to the canvas; a touch event carries
      the first touch point in viewport (client) coordinates. */
  datatype InputEvent = Mouse(offsetX: real, offsetY: real) | Touch(clientX: real, clientY: real)

  /** `getCoordinates`: the event's position in the canvas's own coordinate space. */
  function Coordinates(e: InputEvent, canvas: Option<Rect>): (p: Point)
    ensures canvas.None? ==> p == Point(0.0, 0.0)
    ensures canvas.Some? && e.Mouse? ==> p == Point(e.offsetX, e.offsetY)
    ensures canvas.Some? && e.Touch? ==> p.x + canvas.value.left == e.clientX && p.y + canvas.value.top == e.clientY
  {
    match canvas
    case None => Point(0.0, 0.0)
    case Some(rect) =>
      match e
      case Touch(cx, cy) => Point(cx - rect.left, cy - rect.top)
      case Mouse(ox, oy) => Point(ox, oy)
  }

  /** Touch coordinates do not depend on where the canvas sits on the page:
      moving both the canvas and the finger by the same amount gives the same point. */
  lemma TouchTranslationInvariant(cx: real, cy: real, rect: Rect, dx: real, dy: real)
    ensures Coordinates(Touch(cx + dx, cy + dy), Some(Rect(rect.left + dx, rect.top + dy)))
         == Coordinates(Touch(cx, cy), Some(rect))
  {
  }

  datatype Segment = Segment(from: Point, to: Point)

  /** The segments a `stroke()` of the given path paints. */
  function Painted(path: seq<Segment>): set<Segment> {
    set s | s in path
  }

  /** The pad. `surface` is the mounted canvas with its 2-D context (None before
      mounting or when no context could be obtained); `pen` is the current point and
      `path` the canvas's current path since the last `beginPath`; `ink` is what is
      visible on the canvas. */
  datatype Pad = Pad(
    surface: Option<Rect>,
    isDrawing: bool,
    pen: Point,
    path: seq<Segment>,
    ink: set<Segment>,
    signature: Option<string>)

  const DataUrlPrefix := "data:image/png;base64,"

  /** `!signature` is false: a signature is present. */
  predicate HasSignature(signature: Option<string>) {
    signature.Some? && signature.value != ""
  }

  function NewPad(surface: Option<Rect>): Pad {
    Pad(surface, false, Point(0.0, 0.0), [], {}, None)
  }

  /** `startDrawing` (mousedown, touchstart): `beginPath` empties the path, `moveTo`
      places the pen. */
  function StartDrawing(p: Pad, e: InputEvent): (r: Pad)
    ensures p.surface.None? ==> r == p
    ensures p.surface.Some? ==> r.isDrawing && r.path == [] && r.pen == Coordinates(e, p.surface)
                                && r.ink == p.ink && r.signature == p.signature && r.surface == p.surface
  {
    if p.surface.None? then p
    else p.(isDrawing := true, pen := Coordinates(e, p.surface), path := [])
  }

  /** `draw` (mousemove, touchmove): `lineTo` extends the path and `stroke` paints the
      whole path again, only while a stroke is in progress. */
  function Draw(p: Pad, e: InputEvent): (r: Pad)
    ensures !p.isDrawing || p.surface.None? ==> r == p
    ensures p.isDrawing && p.surface.Some? ==>
              && r.path == p.path + [Segment(p.pen, Coordinates(e, p.surface))]
              && r.ink == p.ink + Painted(r.path)
              && r.pen == Coordinates(e, p.surface)
              && r.signature == p.signature
              && r.isDrawing == p.isDrawing && r.surface == p.surface
  {
    if !p.isDrawing || p.surface.None? then p
    else
      var q := Coordinates(e, p.surface);
      var path := p.path + [Segment(p.pen, q)];
      p.(path := path, ink := p.ink + Painted(path), pen := q)
  }

  /** `finishDrawing` (mouseup, mouseleave, touchend): ends the stroke and takes a
      snapshot of the canvas, `"data:image/png;base64," + encoded`. */
  function FinishDrawing(p: Pad, encoded: string): (r: Pad)
    ensures p.surface.None? ==> r == p
    ensures p.surface.Some? ==> !r.isDrawing && HasSignature(r.signature) && r.ink == p.ink
    ensures p.surface.Some? ==>
              && r.signature == Some(DataUrlPrefix + encoded)
              && Text.StripPrefix(DataUrlPrefix, r.signature.value) == Some(encoded)
              && r.pen == p.pen && r.path == p.path && r.surface == p.surface
  {
    Text.StripPrefixJoin(DataUrlPrefix, encoded);
    if p.surface.None? then p
    else p.(isDrawing := false, signature := Some(DataUrlPrefix + encoded))
  }

  /** `clearSignature`: `clearRect` wipes the pixels and the snapshot is forgotten,
      but the current path survives (a stroke in progress stays in progress). */
  function ClearSignature(p: Pad): (r: Pad)
    ensures p.surface.None? ==> r == p
    ensures p.surface.Some? ==> r.ink == {} && r.signature.None? && r.isDrawing == p.isDrawing
                                && r.path == p.path && r.pen == p.pen && r.surface == p.surface
  {
    if p.surface.None? then p
    else p.(ink := {}, signature := None)
  }

  /** A mouse-leave with no stroke at all still records a (blank) signature. */
  lemma SignatureWithoutStroke(rect: Rect, encoded: string)
    ensures FinishDrawing(NewPad(Some(rect)), encoded).ink == {}
    ensures HasSignature(FinishDrawing(NewPad(Some(rect)), encoded).signature)
  {
  }

  /** Clearing twice is clearing once. */
  lemma ClearIdempotent(p: Pad)
    ensures ClearSignature(ClearSignature(p)) == ClearSignature(p)
  {
  }

  datatype PadEvent = Down(e: InputEvent) | Move(e: InputEvent) | Release(encoded: string) | Clear

  function Step(p: Pad, ev: PadEvent): Pad {
    match ev
    case Down(e) => StartDrawing(p, e)
    case Move(e) => Draw(p, e)
    case Release(encoded) => FinishDrawing(p, encoded)
    case Clear => ClearSignature(p)
  }

  function Run(p: Pad, evs: seq<PadEvent>): Pad
    decreases |evs|
  {
    if |evs| == 0 then p else Step(Run(p, evs[..|evs| - 1]), evs[|evs| - 1])
  }

  /** Reference reading of the event history: a signature is held exactly when a
      release happened after the last clear (or, with neither, the pad started signed). */
  ghost predicate SignedAfter(start: bool, evs: seq<PadEvent>)
    decreases |evs|
  {
    if |evs| == 0 then start
    else match evs[|evs| - 1]
      case Release(_) => true
      case Clear => false
      case _ => SignedAfter(start, evs[..|evs| - 1])
  }

  /** On a mounted pad the signature is present exactly as the event history says. */
  lemma {:induction false} SignatureFollowsHistory(p: Pad, evs: seq<PadEvent>)
    requires p.surface.Some?
    ensures Run(p, evs).surface == p.surface
    ensures HasSignature(Run(p, evs).signature) <==> SignedAfter(HasSignature(p.signature), evs)
    decreases |evs|
  {
    if |evs| > 0 {
      SignatureFollowsHistory(p, evs[..|evs| - 1]);
    }
  }

  /** Without a mounted surface no event changes the pad. */
  lemma {:induction false} UnmountedPadIsInert(p: Pad, evs: seq<PadEvent>)
    requires p.surface.None?
    ensures Run(p, evs) == p
    decreases |evs|
  {
    if |evs| > 0 {
      UnmountedPadIsInert(p, evs[..|evs| - 1]);
    }
  }

  /** A move right after a clear, within the same stroke, repaints every segment of
      the stroke so far: clearing wipes the pixels but not the canvas path. */
  lemma MoveAfterClearRepaintsStroke(p: Pad, e: InputEvent)
    requires p.surface.Some? && p.isDrawing
    ensures Draw(ClearSignature(p), e).ink == Painted(p.path) + {Segment(p.pen, Coordinates(e, p.surface))}
  {
    var seg := Segment(p.pen, Coordinates(e, p.surface));
    assert Painted(p.path + [seg]) == Painted(p.path) + {seg};
  }

  /** Press at a, move to b, clear, move to c: the wiped segment a-b is back on the canvas. */
  lemma ClearMidStrokeExample(rect: Rect, a: InputEvent, b: InputEvent, c: InputEvent)
    ensures Segment(Coordinates(a, Some(rect)), Coordinates(b, Some(rect)))
            in Run(NewPad(Some(rect)), [Down(a), Move(b), Clear, Move(c)]).ink
  {
    var evs := [Down(a), Move(b), Clear, Move(c)];
    var p0 := NewPad(Some(rect));
    assert evs[..1][..0] == [];
    assert Run(p0, evs[..1]) == StartDrawing(p0, a);
    assert evs[..2][..1] == evs[..1];
    var p2 := Run(p0, evs[..2]);
    assert p2 == Draw(StartDrawing(p0, a), b);
    assert p2.isDrawing && p2.surface.Some?;
    assert evs[..3][..2] == evs[..2];
    assert Run(p0, evs[..3]) == ClearSignature(p2);
    assert evs[..4][..3] == evs[..3];
    assert evs[..4] == evs;
    assert Run(p0, evs) == Draw(ClearSignature(p2), c);
    MoveAfterClearRepaintsStroke(p2, c);
    assert p2.path == [Segment(Coordinates(a, Some(rect)), Coordinates(b, Some(rect)))];
  }

  /** A new press after a clear starts from a blank canvas and an empty path. */
  lemma ClearThenPressStartsBlank(p: Pad, e: InputEvent)
    requires p.surface.Some?
    ensures Run(p, [Clear, Down(e)]).ink == {}
    ensures Run(p, [Clear, Down(e)]).path == []
  {
    var evs := [Clear, Down(e)];
    assert evs[..1][..0] == [];
    assert Run(p, evs[..1]) == ClearSignature(p);
    assert Run(p, evs) == StartDrawing(ClearSignature(p), e);
  }

  // ================================================================ generate & send

  /** The component's success and error banners. */
  datatype Messages = Messages(success: string, error: string)

  /** The rendered certificate: the details, resident and date its text is laid out
      from, and the embedded signature image. */
  datatype Pdf = Pdf(details: Details, resident: Option<ResidentInfo>, issued: CalendarDate, signatureImage: string)

  /** The text lines printed on a rendered certificate. */
  function PdfLines(pdf: Pdf): seq<string> {
    CertificateLines(pdf.details, pdf.resident, pdf.issued)
  }

  datatype Generated = Generated(messages: Messages, pdf: Option<Pdf>)

  const SignBeforePdf := "Please sign the document before generating the PDF."
  const SignBeforeEmail := "Please sign the document before sending the email."
  const PdfGenerated := "PDF generated successfully!"
  const PdfFailed := "Failed to generate PDF. Please try again."
  const EmailSent := "Email sent successfully!"
  const EmailFailed := "Failed to send email. Please try again."

  /** `generatePDF`. `renderOk` is whether the PDF library completes without throwing. */
  function GeneratePdf(signature: Option<string>, details: Details, r: Option<ResidentInfo>,
                       today: CalendarDate, renderOk: bool, msgs: Messages): (g: Generated)
    ensures g.pdf.Some? <==> HasSignature(signature) && renderOk
    ensures !HasSignature(signature) ==> g.messages == msgs.(error := SignBeforePdf)
    ensures g.pdf.Some? ==>
              && g.pdf.value.signatureImage == signature.value
              && g.pdf.value.details == details && g.pdf.value.resident == r && g.pdf.value.issued == today
              && g.messages == Messages(PdfGenerated, "")
    ensures HasSignature(signature) && !renderOk ==> g.messages == Messages("", PdfFailed)
  {
    if !HasSignature(signature) then Generated(msgs.(error := SignBeforePdf), None)
    else if !renderOk then Generated(Messages("", PdfFailed), None)
    else Generated(Messages(PdfGenerated, ""), Some(Pdf(details, r, today, signature.value)))
  }

  /** A generated certificate prints the lines of these details, this resident and today's date. */
  lemma GeneratedPdfText(signature: Option<string>, details: Details, r: Option<ResidentInfo>,
                         today: CalendarDate, msgs: Messages)
    requires HasSignature(signature)
    ensures GeneratePdf(signature, details, r, today, true, msgs).pdf.Some?
    ensures PdfLines(GeneratePdf(signature, details, r, today, true, msgs).pdf.value)
         == CertificateLines(details, r, today)
  {
  }

  /** Without a signature nothing is rendered: the outcome does not depend on the renderer. */
  lemma NoRenderWithoutSignature(signature: Option<string>, details: Details, r: Option<ResidentInfo>,
                                 today: CalendarDate, msgs: Messages)
    requires !HasSignature(signature)
    ensures GeneratePdf(signature, details, r, today, true, msgs)
         == GeneratePdf(signature, details, r, today, false, msgs)
  {
  }

  /** Clearing the pad and then generating fails for want of a signature. */
  lemma ClearThenGenerateFails(p: Pad, details: Details, r: Option<ResidentInfo>,
                               today: CalendarDate, renderOk: bool, msgs: Messages)
    requires p.surface.Some?
    ensures GeneratePdf(ClearSignature(p).signature, details, r, today, renderOk, msgs)
         == Generated(msgs.(error := SignBeforePdf), None)
  {
  }

  /** The multipart body posted to the e-mail endpoint. */
  datatype EmailForm = EmailForm(to: string, subject: string, message: string, attachment: Pdf, filename: string)

  /** A request the composer sends to the remote API, in the order sent. */
  datatype Request = PostEmail(form: EmailForm) | PutDocument(id: string, patch: Patch)

  datatype Sent = Sent(messages: Messages, requests: seq<Request>)

  const EmailSubject := "Barangay Certification"
  const AttachmentName := "barangay_certification.pdf"
  const EmailGreeting := "Dear "
  const EmailBody := ",\n\nPlease find attached your requested Barangay Certification.\n\nRegards,\nBarangay Lamintak Sur Office"

  function EmailMessage(name: string): string {
    EmailGreeting + name + EmailBody
  }

  /** Reads the addressee back out of an e-mail message. */
  function ParseEmailMessage(s: string): Option<string> {
    match Text.StripPrefix(EmailGreeting, s)
    case None => None
    case Some(rest) => Text.StripSuffix(EmailBody, rest)
  }

  /** The message names exactly the requester. */
  lemma EmailMessageRoundTrip(name: string)
    ensures ParseEmailMessage(EmailMessage(name)) == Some(name)
  {
    assert EmailMessage(name) == EmailGreeting + (name + EmailBody);
    Text.StripPrefixJoin(EmailGreeting, name + EmailBody);
    Text.StripSuffixJoin(name, EmailBody);
  }

  /** The status update sent after a confirmed delivery. */
  function DeliveredPatch(today: CalendarDate): (p: Patch)
    ensures p.status == Some("Completed") && p.email_sent == Some(true) && p.approval_date.None?
    ensures p.email_sent_date.Some? && ParseLongDate(p.email_sent_date.value) == Some(today)
  {
    LongDateRoundTrip(today);
    Patch(Some("Completed"), None, Some(true), Some(LongDate(today)))
  }

  /** `sendEmailWithPDF`. `emailOk` is `response.data.success` of the e-mail endpoint
      (false also stands for a failed request); `updateOk` is whether the follow-up
      status update completes without throwing. */
  function SendEmailWithPdf(signature: Option<string>, details: Details, r: Option<ResidentInfo>,
                            today: CalendarDate, renderOk: bool, emailOk: bool, updateOk: bool,
                            msgs: Messages): (s: Sent)
    ensures !HasSignature(signature) ==> s == Sent(msgs.(error := SignBeforeEmail), [])
    ensures |s.requests| <= 2
    ensures |s.requests| > 0 <==> HasSignature(signature) && renderOk
    ensures |s.requests| > 0 ==> s.requests[0].PostEmail?
    ensures |s.requests| == 2 <==> HasSignature(signature) && renderOk && emailOk
    ensures |s.requests| == 2 ==> s.requests[1] == PutDocument(details.documentId, DeliveredPatch(today))
    ensures HasSignature(signature) && !(renderOk && emailOk && updateOk) ==> s.messages.error == EmailFailed
    ensures HasSignature(signature) && renderOk && emailOk && updateOk ==> s.messages == Messages(EmailSent, "")
    ensures HasSignature(signature) && !renderOk ==> s.messages == Messages("", EmailFailed)
    ensures HasSignature(signature) && renderOk && !emailOk ==> s.messages == Messages(PdfGenerated, EmailFailed)
    ensures HasSignature(signature) && renderOk && emailOk && !updateOk ==> s.messages == Messages(EmailSent, EmailFailed)
  {
    if !HasSignature(signature) then Sent(msgs.(error := SignBeforeEmail), [])
    else
      var g := GeneratePdf(signature, details, r, today, renderOk, Messages("", ""));
      if g.pdf.None? then Sent(g.messages.(error := EmailFailed), [])
      else
        var form := EmailForm(details.requester_email, EmailSubject, EmailMessage(details.requester_name),
                              g.pdf.value, AttachmentName);
        if !emailOk then Sent(g.messages.(error := EmailFailed), [PostEmail(form)])
        else
          var put := PutDocument(details.documentId, DeliveredPatch(today));
          var m := Messages(EmailSent, g.messages.error);
          Sent(if updateOk then m else m.(error := EmailFailed), [PostEmail(form), put])
  }

  /** The posted form addresses the requester with the fixed subject and attachment name,
      and attaches the certificate generated for these inputs. */
  lemma EmailFormContents(signature: Option<string>, details: Details, r: Option<ResidentInfo>,
                          today: CalendarDate, emailOk: bool, updateOk: bool, msgs: Messages)
    requires HasSignature(signature)
    ensures var s := SendEmailWithPdf(signature, details, r, today, true, emailOk, updateOk, msgs);
            && |s.requests| > 0
            && s.requests[0].form.to == details.requester_email
            && s.requests[0].form.subject == "Barangay Certification"
            && s.requests[0].form.filename == "barangay_certification.pdf"
            && ParseEmailMessage(s.requests[0].form.message) == Some(details.requester_name)
            && s.requests[0].form.attachment == GeneratePdf(signature, details, r, today, true, msgs).pdf.value
  {
    EmailMessageRoundTrip(details.requester_name);
  }
}

=== FILE: dashboard.dfy ===
/** The dashboard's figures: the gender and status pie charts, the age bar chart,
    the monthly request line chart and the "pending approvals" count. */
module Dashboard {
  import opened Wrappers
  import Seqs
  import Text
  import opened Dates
  import opened Records
  import opened Tally

  /** What the dashboard reads from a resident: `gender` as sent, and `age`
      already passed through `parseInt` (None when that gives NaN). */
  datatype ResidentStats = ResidentStats(gender: Option<string>, age: Option<int>)

  // ================================================================ gender

  /** Case-insensitive normalisation: anything mentioning "female" is Female,
      anything else mentioning "male" is Male, everything else is kept as written. */
  function NormalizeGender(g: string): string {
    var l := Text.ToLower(g);
    if Text.Contains(l, "male") then (if Text.Contains(l, "female") then "Female" else "Male") else g
  }

  lemma LowerFemaleMale()
    ensures Text.ToLower("Female") == "female" && Text.ToLower("Male") == "male"
    ensures Text.Contains("female", "female") && Text.Contains("female", "male")
    ensures Text.Contains("male", "male") && !Text.Contains("male", "female")
  {
    assert Text.IsPrefix("female", "female");
    assert Text.IsPrefix("male", "female"[2..]);
    assert Text.IsPrefix("male", "male");
    assert Text.Contains("female", "male") by {
      assert Text.Contains("female"[1..], "male") by {
        assert Text.Contains("female"[1..][1..], "male");
      }
    }
  }

  /** The three outcomes of normalisation, each an if-and-only-if. */
  lemma NormalizeGenderCases(g: string)
    ensures NormalizeGender(g) == "Female" <==> Text.Contains(Text.ToLower(g), "female")
    ensures NormalizeGender(g) == "Male" <==>
              Text.Contains(Text.ToLower(g), "male") && !Text.Contains(Text.ToLower(g), "female")
    ensures !Text.Contains(Text.ToLower(g), "male") ==> NormalizeGender(g) == g
  {
    var l := Text.ToLower(g);
    LowerFemaleMale();
    if Text.Contains(l, "female") {
      Text.ContainsTransitive(l, "female", "male");
    }
  }

  /** Normalising a normalised value changes nothing. */
  lemma NormalizeGenderIdempotent(g: string)
    ensures NormalizeGender(NormalizeGender(g)) == NormalizeGender(g)
  {
    LowerFemaleMale();
    NormalizeGenderCases(g);
  }

  /** The chart key a resident contributes: its trimmed, normalised gender, or
      nothing when the gender is missing or blank. */
  function GenderKey(r: ResidentStats): (k: Option<string>)
    ensures k.Some? <==> r.gender.Some? && Text.Trim(r.gender.value) != ""
  {
    if r.gender.Some? && Text.Trim(r.gender.value) != "" then Some(NormalizeGender(Text.Trim(r.gender.value)))
    else None
  }

  predicate HasGender(r: ResidentStats) {
    GenderKey(r).Some?
  }

  /** The keys of the residents that have a gender, in order. */
  function GenderKeys(rs: seq<ResidentStats>): (ks: seq<string>)
    ensures |ks| == Seqs.Count(HasGender, rs)
    decreases |rs|
  {
    if |rs| == 0 then []
    else
      var rest := GenderKeys(rs[..|rs| - 1]);
      var k := GenderKey(rs[|rs| - 1]);
      if k.Some? then rest + [k.value] else rest
  }

  /** Reference count: the residents whose chart key is `g`. */
  function ResidentsWithGender(rs: seq<ResidentStats>, g: string): nat
    decreases |rs|
  {
    if |rs| == 0 then 0
    else ResidentsWithGender(rs[..|rs| - 1], g) + (if GenderKey(rs[|rs| - 1]) == Some(g) then 1 else 0)
  }

  lemma {:induction false} GenderKeysMultiplicity(rs: seq<ResidentStats>, g: string)
    ensures multiset(GenderKeys(rs))[g] == ResidentsWithGender(rs, g)
    decreases |rs|
  {
    if |rs| > 0 {
      GenderKeysMultiplicity(rs[..|rs| - 1], g);
    }
  }

  /** `genderData`: one slice per normalised gender, distinct names, every value at
      least one, each value the number of residents with that gender, and the values
      add up to the number of residents with a gender. */
  function GenderData(rs: seq<ResidentStats>): (r: seq<Entry>)
    ensures DistinctNames(r)
    ensures forall j :: 0 <= j < |r| ==> r[j].value >= 1
    ensures forall g :: ValueOf(r, g) == ResidentsWithGender(rs, g)
    ensures Total(r) == Seqs.Count(HasGender, rs)
  {
    forall g ensures multiset(GenderKeys(rs))[g] == ResidentsWithGender(rs, g) {
      GenderKeysMultiplicity(rs, g);
    }
    Tally.Count(GenderKeys(rs))
  }

  // ================================================================ age

  const AgeRangeLabels: seq<string> := ["0-18", "19-30", "31-45", "46-60", "61+"]

  /** The bar an age falls into. */
  function AgeBucket(age: int): (k: nat)
    ensures k < 5
  {
    if age <= 18 then 0
    else if age <= 30 then 1
    else if age <= 45 then 2
    else if age <= 60 then 3
    else 4
  }

  /** The bucket boundaries, stated per bucket. */
  lemma AgeBucketBounds(age: int)
    ensures AgeBucket(age) == 0 <==> age <= 18
    ensures AgeBucket(age) == 1 <==> 19 <= age <= 30
    ensures AgeBucket(age) == 2 <==> 31 <= age <= 45
    ensures AgeBucket(age) == 3 <==> 46 <= age <= 60
    ensures AgeBucket(age) == 4 <==> 61 <= age
  {
  }

  /** Buckets are ordered: an older resident never lands in an earlier bar. */
  lemma AgeBucketMonotone(a: int, b: int)
    requires a <= b
    ensures AgeBucket(a) <= AgeBucket(b)
  {
  }

  predicate InBucket(r: ResidentStats, k: nat) {
    r.age.Some? && AgeBucket(r.age.value) == k
  }

  predicate HasAge(r: ResidentStats) {
    r.age.Some?
  }

  /** Reference count: the residents with a parsed age in bucket `k`. */
  function ResidentsInBucket(rs: seq<ResidentStats>, k: nat): nat
    decreases |rs|
  {
    if |rs| == 0 then 0
    else ResidentsInBucket(rs[..|rs| - 1], k) + (if InBucket(rs[|rs| - 1], k) then 1 else 0)
  }

  /** Reference count: the residents with a parsed age. */
  function ResidentsWithAge(rs: seq<ResidentStats>): nat
    decreases |rs|
  {
    if |rs| == 0 then 0
    else ResidentsWithAge(rs[..|rs| - 1]) + (if HasAge(rs[|rs| - 1]) then 1 else 0)
  }

  /** The `forEach` over residents: each parseable age adds one to exactly one bar. */
  function AgeCounts(rs: seq<ResidentStats>): (c: seq<nat>)
    ensures |c| == 5
    ensures forall k: nat :: k < 5 ==> c[k] == ResidentsInBucket(rs, k)
    ensures c[0] + c[1] + c[2] + c[3] + c[4] == ResidentsWithAge(rs)
    decreases |rs|
  {
    if |rs| == 0 then [0, 0, 0, 0, 0]
    else
      var c := AgeCounts(rs[..|rs| - 1]);
      var last := rs[|rs| - 1];
      if last.age.Some? then
        var b := AgeBucket(last.age.value);
        AgeCountsStep(rs, c, b);
        c[b := c[b] + 1]
      else
        AgeCountsSkip(rs, c);
        c
  }

  /** The last resident has an age in bucket `b`: that bar, and only that bar, grows by one. */
  lemma AgeCountsStep(rs: seq<ResidentStats>, c: seq<nat>, b: nat)
    requires |rs| > 0 && |c| == 5
    requires forall k: nat :: k < 5 ==> c[k] == ResidentsInBucket(rs[..|rs| - 1], k)
    requires c[0] + c[1] + c[2] + c[3] + c[4] == ResidentsWithAge(rs[..|rs| - 1])
    requires rs[|rs| - 1].age.Some? && b == AgeBucket(rs[|rs| - 1].age.value)
    ensures forall k: nat :: k < 5 ==> c[b := c[b] + 1][k] == ResidentsInBucket(rs, k)
    ensures var r := c[b := c[b] + 1]; r[0] + r[1] + r[2] + r[3] + r[4] == ResidentsWithAge(rs)
  {
    var r := c[b := c[b] + 1];
    forall k: nat | k < 5
      ensures r[k] == ResidentsInBucket(rs, k)
    {
      assert InBucket(rs[|rs| - 1], k) <==> k == b;
    }
    assert r[0] + r[1] + r[2] + r[3] + r[4] == c[0] + c[1] + c[2] + c[3] + c[4] + 1;
  }

  /** The last resident has no age: no bar changes. */
  lemma AgeCountsSkip(rs: seq<ResidentStats>, c: seq<nat>)
    requires |rs| > 0 && |c| == 5
    requires forall k: nat :: k < 5 ==> c[k] == ResidentsInBucket(rs[..|rs| - 1], k)
    requires c[0] + c[1] + c[2] + c[3] + c[4] == ResidentsWithAge(rs[..|rs| - 1])
    requires rs[|rs| - 1].age.None?
    ensures forall k: nat :: k < 5 ==> c[k] == ResidentsInBucket(rs, k)
    ensures c[0] + c[1] + c[2] + c[3] + c[4] == ResidentsWithAge(rs)
  {
  }

  /** `ageRanges`: the five bars in fixed order with their labels. */
  function AgeRanges(rs: seq<ResidentStats>): (r: seq<Entry>)
    ensures |r| == 5
    ensures forall k :: 0 <= k < 5 ==> r[k].name == AgeRangeLabels[k]
    ensures forall k: nat :: k < 5 ==> r[k].value == ResidentsInBucket(rs, k)
    ensures Total(r) == ResidentsWithAge(rs)
  {
    var c := AgeCounts(rs);
    var r := seq(5, k requires 0 <= k < 5 => Entry(AgeRangeLabels[k], c[k]));
    TotalOfFive(r);
    r
  }

  lemma TotalOfFive(r: seq<Entry>)
    requires |r| == 5
    ensures Total(r) == r[0].value + r[1].value + r[2].value + r[3].value + r[4].value
  {
    TotalPrefixStep(r, 0);
    TotalPrefixStep(r, 1);
    TotalPrefixStep(r, 2);
    TotalPrefixStep(r, 3);
    TotalPrefixStep(r, 4);
    assert r[..5] == r;
  }

  // ================================================================ status

  function Statuses(docs: seq<Document>): (s: seq<string>)
    ensures |s| == |docs|
    ensures forall i :: 0 <= i < |docs| ==> s[i] == docs[i].status
    decreases |docs|
  {
    if |docs| == 0 then [] else Statuses(docs[..|docs| - 1]) + [docs[|docs| - 1].status]
  }

  /** Reference count: the documents whose status is `s`. */
  function DocumentsWithStatus(docs: seq<Document>, s: string): nat
    decreases |docs|
  {
    if |docs| == 0 then 0
    else DocumentsWithStatus(docs[..|docs| - 1], s) + (if docs[|docs| - 1].status == s then 1 else 0)
  }

  lemma {:induction false} StatusesMultiplicity(docs: seq<Document>, s: string)
    ensures multiset(Statuses(docs))[s] == DocumentsWithStatus(docs, s)
    decreases |docs|
  {
    if |docs| > 0 {
      StatusesMultiplicity(docs[..|docs| - 1], s);
    }
  }

  /** `documentStatusData`: one slice per status, each value the number of documents
      with that status, values adding up to the number of documents. */
  function DocumentStatusData(docs: seq<Document>): (r: seq<Entry>)
    ensures DistinctNames(r)
    ensures Total(r) == |docs|
    ensures forall j :: 0 <= j < |r| ==> r[j].value >= 1
    ensures forall s :: ValueOf(r, s) == DocumentsWithStatus(docs, s)
  {
    forall s ensures multiset(Statuses(docs))[s] == DocumentsWithStatus(docs, s) {
      StatusesMultiplicity(docs, s);
    }
    Tally.Count(Statuses(docs))
  }

  predicate IsProcessing(d: Document) {
    d.status == "Processing"
  }

  /** The "pending approvals" figure counts the documents in status "Processing". */
  function PendingApprovals(docs: seq<Document>): nat {
    Seqs.Count(IsProcessing, docs)
  }

  lemma {:induction false} ProcessingCountIsMultiplicity(docs: seq<Document>)
    ensures Seqs.Count(IsProcessing, docs) == multiset(Statuses(docs))["Processing"]
    decreases |docs|
  {
    if |docs| > 0 {
      var init := docs[..|docs| - 1];
      ProcessingCountIsMultiplicity(init);
    }
  }

  /** The figure agrees with the "Processing" slice of the status chart. */
  lemma PendingApprovalsIsProcessingSlice(docs: seq<Document>)
    ensures PendingApprovals(docs) == ValueOf(DocumentStatusData(docs), "Processing")
  {
    ProcessingCountIsMultiplicity(docs);
  }

  // ================================================================ monthly

  predicate InMonth(d: Document, year: int, m: MonthIndex) {
    d.timestamp.Some? && d.timestamp.value.year == year && d.timestamp.value.month == m
  }

  predicate InYear(d: Document, year: int) {
    d.timestamp.Some? && d.timestamp.value.year == year
  }

  /** `monthlyDocumentData`: twelve points, January to December, each counting the
      documents requested in that month of the current year. */
  function MonthlyDocumentData(docs: seq<Document>, currentYear: int): (r: seq<Entry>)
    ensures |r| == 12
    ensures forall m: MonthIndex :: r[m].name == ShortMonthNames[m]
    ensures forall m: MonthIndex :: r[m].value == Seqs.Count(d => InMonth(d, currentYear, m), docs)
  {
    seq(12, i requires 0 <= i < 12 => Entry(ShortMonthNames[i], Seqs.Count(d => InMonth(d, currentYear, i), docs)))
  }

  /** Appending one document adds one to the point of its own month, if it is in the
      year at all, and leaves the other points as they were. */
  lemma MonthlyStep(docs: seq<Document>, year: int)
    requires |docs| > 0
    ensures var x := docs[|docs| - 1];
            var q := MonthlyDocumentData(docs[..|docs| - 1], year);
            MonthlyDocumentData(docs, year)
            == if InYear(x, year) then q[x.timestamp.value.month := q[x.timestamp.value.month].(value := q[x.timestamp.value.month].value + 1)]
               else q
  {
    var x := docs[|docs| - 1];
    var r := MonthlyDocumentData(docs, year);
    var q := MonthlyDocumentData(docs[..|docs| - 1], year);
    forall m: MonthIndex
      ensures r[m].value == q[m].value + (if InMonth(x, year, m) then 1 else 0)
    {
    }
  }

  /** The twelve points add up to the documents of the current year, hence never
      to more than the number of documents. */
  lemma {:induction false} MonthlyTotal(docs: seq<Document>, currentYear: int)
    ensures Total(MonthlyDocumentData(docs, currentYear)) == Seqs.Count(d => InYear(d, currentYear), docs)
    ensures Total(MonthlyDocumentData(docs, currentYear)) <= |docs|
    decreases |docs|
  {
    if |docs| == 0 {
      TotalZero(MonthlyDocumentData(docs, currentYear));
    } else {
      var x := docs[|docs| - 1];
      MonthlyTotal(docs[..|docs| - 1], currentYear);
      MonthlyStep(docs, currentYear);
      if InYear(x, currentYear) {
        TotalIncrement(MonthlyDocumentData(docs[..|docs| - 1], currentYear), x.timestamp.value.month);
      }
    }
  }
}

=== FILE: dates.dfy ===
/** Calendar values handed in by the clock, and the English month tables used by
    `toLocaleDateString('en-US', { month: 'long', day: 'numeric', year: 'numeric' })`. */
module Dates {
  import opened Wrappers
  import Text

  /** `Date.prototype.getMonth()`: 0 is January. */
  type MonthIndex = m: int | 0 <= m < 12

  /** A day as the clock reports it (`getFullYear`, `getMonth`, `getDate`). */
  datatype CalendarDate = CalendarDate(year: nat, month: MonthIndex, day: nat)

  /** The part of a parsed timestamp the dashboard looks at. */
  datatype YearMonth = YearMonth(year: int, month: MonthIndex)

  const LongMonthNames: seq<string> := [
    "January", "February", "March", "April", "May", "June",
    "July", "August", "September", "October", "November", "December"
  ]

  const ShortMonthNames: seq<string> := [
    "Jan", "Feb", "Mar", "Apr", "May", "Jun", "Jul", "Aug", "Sep", "Oct", "Nov", "Dec"
  ]

  /** Month names are pairwise distinct and contain neither blanks nor commas. */
  lemma MonthNamesWellFormed()
    ensures |LongMonthNames| == 12 && |ShortMonthNames| == 12
    ensures forall i, j :: 0 <= i < j < 12 ==> LongMonthNames[i] != LongMonthNames[j]
    ensures forall i :: 0 <= i < 12 ==> ' ' !in LongMonthNames[i] && ',' !in LongMonthNames[i]
    ensures forall i :: 0 <= i < 12 ==> LongMonthNames[i] != ""
  {
  }

  /** The month whose full English name is `name`. */
  function MonthOfName(name: string): (r: Option<MonthIndex>)
    ensures r.Some? ==> LongMonthNames[r.value] == name
    ensures r.None? ==> name !in LongMonthNames
  {
    if name in LongMonthNames then
      var i :| 0 <= i < 12 && LongMonthNames[i] == name;
      Some(i)
    else None
  }

  lemma MonthOfNameInverse(m: MonthIndex)
    ensures MonthOfName(LongMonthNames[m]) == Some(m)
  {
    MonthNamesWellFormed();
  }

  /** "October 9, 2026": the en-US long date format. */
  function LongDate(d: CalendarDate): string {
    LongMonthNames[d.month] + " " + Text.NatToString(d.day) + ", " + Text.NatToString(d.year)
  }

  /** Reads a long date back into its parts. */
  function ParseLongDate(s: string): Option<CalendarDate> {
    match Text.SplitAt(s, ' ')
    case None => None
    case Some((name, rest)) =>
      match MonthOfName(name)
      case None => None
      case Some(m) =>
        match Text.SplitAt(rest, ',')
        case None => None
        case Some((dayText, tail)) =>
          match Text.StripPrefix(" ", tail)
          case None => None
          case Some(yearText) =>
            match (Text.ParseNat(dayText), Text.ParseNat(yearText))
            case (Some(day), Some(year)) => Some(CalendarDate(year, m, day))
            case _ => None
  }

  /** A long date determines the calendar date it was made from. */
  lemma LongDateRoundTrip(d: CalendarDate)
    ensures ParseLongDate(LongDate(d)) == Some(d)
  {
    MonthNamesWellFormed();
    var name := LongMonthNames[d.month];
    var dayText := Text.NatToString(d.day);
    var yearText := Text.NatToString(d.year);
    var tail := " " + yearText;
    var rest := dayText + [','] + tail;
    assert LongDate(d) == name + [' '] + rest;
    Text.SplitAtJoin(name, ' ', rest);
    MonthOfNameInverse(d.month);
    Text.DigitsHaveNo(dayText, ',');
    Text.SplitAtJoin(dayText, ',', tail);
    Text.StripPrefixJoin(" ", yearText);
    Text.ParseNatRoundTrip(d.day);
    Text.ParseNatRoundTrip(d.year);
  }

  /** Different dates never produce the same long-date text. */
  lemma LongDateInjective(d1: CalendarDate, d2: CalendarDate)
    requires LongDate(d1) == LongDate(d2)
    ensures d1 == d2
  {
    LongDateRoundTrip(d1);
    LongDateRoundTrip(d2);
  }
}

=== FILE: documents.dfy ===
/** The document-requests page: search and status filtering, the list updates
    applied after the API confirms a change, receipt image ids, and which actions
    each request offers in the table and in the detail modal. */
module Documents {
  import opened Wrappers
  import Seqs
  import Text
  import opened Js
  import opened Dates
  import opened Records
  import Certificate

  // ================================================================ filtering

  /** `(field?.toLowerCase() || '')`. */
  function LowerField(f: Option<string>): string {
    if f.Some? then Text.ToLower(f.value) else ""
  }

  /** The search box matches the requester name or either spelling of the document type. */
  predicate MatchesSearch(d: Document, term: string) {
    var t := Text.ToLower(term);
    || Text.Contains(LowerField(d.requester_name), t)
    || Text.Contains(LowerField(d.documentType), t)
    || Text.Contains(LowerField(d.document_type), t)
  }

  predicate MatchesStatus(d: Document, statusFilter: string) {
    statusFilter == "All" || d.status == statusFilter
  }

  predicate Keep(d: Document, term: string, statusFilter: string) {
    MatchesSearch(d, term) && MatchesStatus(d, statusFilter)
  }

  /** `filteredDocuments`. */
  function FilterDocuments(docs: seq<Document>, term: string, statusFilter: string): (r: seq<Document>)
    ensures |r| <= |docs|
    ensures forall d :: d in r <==> d in docs && Keep(d, term, statusFilter)
    ensures Seqs.IsSubsequence(r, docs)
    ensures forall d :: multiset(r)[d] == if Keep(d, term, statusFilter) then multiset(docs)[d] else 0
    ensures (forall i :: 0 <= i < |docs| ==> Keep(docs[i], term, statusFilter)) ==> r == docs
  {
    var keep := d => Keep(d, term, statusFilter);
    Seqs.FilterIsSubsequence(keep, docs);
    Seqs.FilterKeepsAll(keep, docs);
    Seqs.Filter(keep, docs)
  }

  /** The lower-cased search term occurs somewhere in the lower-cased field. */
  ghost predicate TermOccursIn(f: Option<string>, term: string) {
    exists i :: Text.OccursAt(LowerField(f), Text.ToLower(term), i)
  }

  /** A document is listed exactly when its status passes the filter and the term
      occurs in the requester name or one of the document-type fields. */
  lemma KeepIff(d: Document, term: string, statusFilter: string)
    ensures Keep(d, term, statusFilter) <==>
              && (statusFilter == "All" || d.status == statusFilter)
              && (TermOccursIn(d.requester_name, term) || TermOccursIn(d.documentType, term)
                  || TermOccursIn(d.document_type, term))
  {
    var t := Text.ToLower(term);
    Text.ContainsIffOccurs(LowerField(d.requester_name), t);
    Text.ContainsIffOccurs(LowerField(d.documentType), t);
    Text.ContainsIffOccurs(LowerField(d.document_type), t);
  }

  /** With an empty search term and "All", every document is listed, in order. */
  lemma EmptySearchKeepsAll(docs: seq<Document>)
    ensures FilterDocuments(docs, "", "All") == docs
  {
    forall i | 0 <= i < |docs|
      ensures Keep(docs[i], "", "All")
    {
      Text.ContainsEmpty(LowerField(docs[i].requester_name));
    }
  }

  // ================================================================ updates

  /** What the API call reported: a reply with `success`, or a thrown error with its
      `message` (None when the thrown value is not an `Error`). */
  datatype Reply = Replied(success: bool) | Threw(message: Option<string>)

  datatype ActionStatus = ActionStatus(message: string, isError: bool)

  function ErrorText(message: Option<string>): string {
    message.GetOr("Unknown error")
  }

  /** The body of `handleStatusChange`'s PUT. */
  function StatusChangePatch(newStatus: string, today: CalendarDate): (p: Patch)
    ensures p.status == Some(newStatus)
    ensures p.approval_date.Some? <==> newStatus == "Completed"
    ensures p.approval_date.Some? ==> ParseLongDate(p.approval_date.value) == Some(today)
    ensures p.email_sent.None? && p.email_sent_date.None?
  {
    LongDateRoundTrip(today);
    Patch(Some(newStatus), if newStatus == "Completed" then Some(LongDate(today)) else None, None, None)
  }

  /** The body of `handleSendEmail`'s PUT. */
  function EmailPatch(today: CalendarDate): (p: Patch)
    ensures p.status.None? && p.approval_date.None?
    ensures p.email_sent == Some(true)
    ensures p.email_sent_date == Some(LongDate(today))
  {
    Patch(None, None, Some(true), Some(LongDate(today)))
  }

  /** The send date the e-mail update stores reads back as the day it was sent. */
  lemma EmailPatchDateReadsBack(today: CalendarDate)
    ensures EmailPatch(today).email_sent_date.Some?
    ensures ParseLongDate(EmailPatch(today).email_sent_date.value) == Some(today)
  {
    LongDateRoundTrip(today);
  }

  /** `docs.map(doc => doc.documentId === id ? { ...doc, ...p } : doc)`. */
  function UpdateById(docs: seq<Document>, id: string, p: Patch): (r: seq<Document>)
    ensures |r| == |docs|
    ensures forall i :: 0 <= i < |docs| ==> r[i].documentId == docs[i].documentId
    ensures forall i :: 0 <= i < |docs| && docs[i].documentId != id ==> r[i] == docs[i]
    ensures forall i :: 0 <= i < |docs| && docs[i].documentId == id ==> r[i] == ApplyPatch(docs[i], p)
  {
    seq(|docs|, i requires 0 <= i < |docs| =>
      if docs[i].documentId == id then ApplyPatch(docs[i], p) else docs[i])
  }

  /** `docs.filter(doc => doc.documentId !== id)`. */
  function DeleteById(docs: seq<Document>, id: string): (r: seq<Document>)
    ensures forall d :: d in r <==> d in docs && d.documentId != id
    ensures Seqs.IsSubsequence(r, docs)
    ensures |r| == |docs| - Seqs.Count((d: Document) => d.documentId == id, docs)
  {
    var keep := (d: Document) => d.documentId != id;
    Seqs.FilterIsSubsequence(keep, docs);
    CountComplement(docs, id);
    Seqs.Filter(keep, docs)
  }

  lemma {:induction false} CountComplement(docs: seq<Document>, id: string)
    ensures Seqs.Count((d: Document) => d.documentId != id, docs)
          + Seqs.Count((d: Document) => d.documentId == id, docs) == |docs|
    decreases |docs|
  {
    if |docs| > 0 {
      CountComplement(docs[..|docs| - 1], id);
    }
  }

  /** Updating a document and then deleting it leaves the same list as deleting it. */
  lemma {:induction false} DeleteAfterUpdate(docs: seq<Document>, id: string, p: Patch)
    ensures DeleteById(UpdateById(docs, id, p), id) == DeleteById(docs, id)
    decreases |docs|
  {
    if |docs| > 0 {
      var init := docs[..|docs| - 1];
      var last := docs[|docs| - 1];
      assert docs == init + [last];
      DeleteAfterUpdate(init, id, p);
      DeleteAfterUpdateStep(init, last, id, p);
    }
  }

  /** The inductive step of `DeleteAfterUpdate`: one more document at the end. */
  lemma DeleteAfterUpdateStep(init: seq<Document>, last: Document, id: string, p: Patch)
    requires DeleteById(UpdateById(init, id, p), id) == DeleteById(init, id)
    ensures DeleteById(UpdateById(init + [last], id, p), id) == DeleteById(init + [last], id)
  {
    var x := if last.documentId == id then ApplyPatch(last, p) else last;
    assert x.documentId == last.documentId;
    UpdateByIdSnoc(init, last, id, p);
    DeleteByIdSnoc(init, last, id);
    DeleteByIdSnoc(UpdateById(init, id, p), x, id);
  }

  /** Updating a list with one more element at the end. */
  lemma UpdateByIdSnoc(docs: seq<Document>, x: Document, id: string, p: Patch)
    ensures UpdateById(docs + [x], id, p)
         == UpdateById(docs, id, p) + [if x.documentId == id then ApplyPatch(x, p) else x]
  {
  }

  /** Deleting from a list with one more element at the end. */
  lemma DeleteByIdSnoc(docs: seq<Document>, x: Document, id: string)
    ensures DeleteById(docs + [x], id) == DeleteById(docs, id) + (if x.documentId != id then [x] else [])
  {
    assert (docs + [x])[..|docs|] == docs;
  }

  /** Applying an update twice is the same as applying it once. */
  lemma UpdateByIdIdempotent(docs: seq<Document>, id: string, p: Patch)
    ensures UpdateById(UpdateById(docs, id, p), id, p) == UpdateById(docs, id, p)
  {
    forall i | 0 <= i < |docs| {
      ApplyPatchIdempotent(docs[i], p);
    }
  }

  datatype Outcome = Outcome(docs: seq<Document>, status: Option<ActionStatus>)

  /** How a confirmed, refused or failed request changes the list and the banner. */
  function Settle(docs: seq<Document>, reply: Reply, changed: seq<Document>,
                  successText: string, errorPrefix: string): (o: Outcome)
    ensures reply == Replied(true) ==> o == Outcome(changed, Some(ActionStatus(successText, false)))
    ensures reply == Replied(false) ==> o == Outcome(docs, None)
    ensures reply.Threw? ==> o == Outcome(docs, Some(ActionStatus(errorPrefix + ErrorText(reply.message), true)))
  {
    match reply
    case Replied(ok) =>
      if ok then Outcome(changed, Some(ActionStatus(successText, false))) else Outcome(docs, None)
    case Threw(m) => Outcome(docs, Some(ActionStatus(errorPrefix + ErrorText(m), true)))
  }

  /** The banner texts of the three document actions. */
  const StatusChangeError := "Error updating document status: "
  const EmailNotified := "Email notification sent successfully"
  const EmailError := "Error sending email: "
  const DocumentDeleted := "Document deleted successfully"
  const DeleteError := "Error deleting document: "

  /** `handleStatusChange`. */
  function HandleStatusChange(docs: seq<Document>, id: string, newStatus: string,
                              today: CalendarDate, reply: Reply): (o: Outcome)
    ensures reply != Replied(true) ==> o.docs == docs
    ensures reply == Replied(true) ==> o.docs == UpdateById(docs, id, StatusChangePatch(newStatus, today))
    ensures reply == Replied(true) ==>
              o.status == Some(ActionStatus("Document " + Text.ToLower(newStatus) + " successfully", false))
    ensures reply == Replied(false) ==> o.status.None?
    ensures reply.Threw? ==>
              o.status == Some(ActionStatus(StatusChangeError + ErrorText(reply.message), true))
  {
    Settle(docs, reply, UpdateById(docs, id, StatusChangePatch(newStatus, today)),
           "Document " + Text.ToLower(newStatus) + " successfully", StatusChangeError)
  }

  /** `handleSendEmail`. */
  function HandleSendEmail(docs: seq<Document>, id: string, today: CalendarDate, reply: Reply): (o: Outcome)
    ensures reply != Replied(true) ==> o.docs == docs
    ensures reply == Replied(true) ==> o.docs == UpdateById(docs, id, EmailPatch(today))
    ensures reply == Replied(true) ==> o.status == Some(ActionStatus(EmailNotified, false))
    ensures reply == Replied(false) ==> o.status.None?
    ensures reply.Threw? ==> o.status == Some(ActionStatus(EmailError + ErrorText(reply.message), true))
  {
    Settle(docs, reply, UpdateById(docs, id, EmailPatch(today)),
           EmailNotified, EmailError)
  }

  /** `handleDeleteDocument`. */
  function HandleDeleteDocument(docs: seq<Document>, id: string, reply: Reply): (o: Outcome)
    ensures reply != Replied(true) ==> o.docs == docs
    ensures reply == Replied(true) ==> o.docs == DeleteById(docs, id)
    ensures reply == Replied(true) ==> o.status == Some(ActionStatus(DocumentDeleted, false))
    ensures reply == Replied(false) ==> o.status.None?
    ensures reply.Threw? ==> o.status == Some(ActionStatus(DeleteError + ErrorText(reply.message), true))
  {
    Settle(docs, reply, DeleteById(docs, id), DocumentDeleted, DeleteError)
  }

  /** The e-mail update touches only the two e-mail fields of the matching documents. */
  lemma SendEmailChangesOnlyEmailFields(docs: seq<Document>, id: string, today: CalendarDate, i: nat)
    requires i < |docs|
    ensures var r := HandleSendEmail(docs, id, today, Replied(true)).docs;
            && (docs[i].documentId == id ==>
                  r[i] == docs[i].(email_sent := Some(true), email_sent_date := Some(LongDate(today))))
            && (docs[i].documentId != id ==> r[i] == docs[i])
  {
  }

  // ================================================================ receipt image id

  /** `id=` starts at `i` and is followed by at least one character other than '&':
      the regular expression `/id=([^&]+)/` can match at `i`. */
  predicate MatchAt(s: string, i: int) {
    0 <= i && i + 3 < |s| && s[i..i + 3] == "id=" && s[i + 3] != '&'
  }

  /** The first index at or after `j` holding '&', or the end of the string. */
  function RunEnd(s: string, j: nat): (k: nat)
    requires j <= |s|
    ensures j <= k <= |s|
    ensures forall m :: j <= m < k ==> s[m] != '&'
    ensures k == |s| || s[k] == '&'
    decreases |s| - j
  {
    if j == |s| || s[j] == '&' then j else RunEnd(s, j + 1)
  }

  /** The leftmost match position at or after `from`. */
  function FirstMatch(s: string, from: nat): (r: Option<nat>)
    ensures r.Some? ==> from <= r.value && MatchAt(s, r.value)
    ensures r.Some? ==> forall j :: from <= j < r.value ==> !MatchAt(s, j)
    ensures r.None? ==> forall j :: from <= j ==> !MatchAt(s, j)
    decreases |s| - from
  {
    if from + 3 >= |s| then None
    else if MatchAt(s, from) then Some(from)
    else FirstMatch(s, from + 1)
  }

  /** `cap` is what the capture group takes when the match starts at `i`:
      the maximal run of characters other than '&' after "id=". */
  ghost predicate CapturedAt(s: string, i: nat, cap: string) {
    && i + 3 + |cap| <= |s|
    && s[i + 3..i + 3 + |cap|] == cap
    && (i + 3 + |cap| == |s| || s[i + 3 + |cap|] == '&')
  }

  /** `file.match(/id=([^&]+)/)?.[1]`. */
  function ReceiptId(file: string): (r: Option<string>)
    ensures r.Some? <==> exists i :: MatchAt(file, i)
    ensures r.Some? ==> |r.value| > 0 && '&' !in r.value
    ensures r.Some? ==> exists i: nat :: MatchAt(file, i) && (forall j :: 0 <= j < i ==> !MatchAt(file, j))
                                          && CapturedAt(file, i, r.value)
  {
    match FirstMatch(file, 0)
    case None => None
    case Some(i) =>
      var k := RunEnd(file, i + 3);
      var cap := file[i + 3..k];
      assert CapturedAt(file, i, cap);
      Some(cap)
  }

  /** `handleViewDocument`'s effect on `imageId`: only a receipt whose `file` includes
      "id=" and actually matches replaces the current id. */
  function ViewImageId(current: string, receiptFile: Option<string>): (r: string)
    ensures receiptFile.Some? && Text.Contains(receiptFile.value, "id=") && ReceiptId(receiptFile.value).Some?
            ==> r == ReceiptId(receiptFile.value).value
    ensures r != current ==> receiptFile.Some? && Text.Contains(receiptFile.value, "id=")
                             && ReceiptId(receiptFile.value) == Some(r)
  {
    if receiptFile.Some? && Text.Contains(receiptFile.value, "id=") then
      match ReceiptId(receiptFile.value)
      case Some(id) => id
      case None => current
    else current
  }

  /** The first "id=" followed by a non-'&' character wins, even after an empty one. */
  lemma ReceiptIdExample()
    ensures ReceiptId("?id=&id=7a&x") == Some("7a")
  {
    var s := "?id=&id=7a&x";
    assert MatchAt(s, 5);
    assert !MatchAt(s, 1) by { assert s[4] == '&'; }
    assert !MatchAt(s, 0) by { assert s[0..3][0] == '?'; }
    assert !MatchAt(s, 2) by { assert s[2..5][0] == 'd'; }
    assert !MatchAt(s, 3) by { assert s[3..6][0] == '='; }
    assert !MatchAt(s, 4) by { assert s[4..7][0] == '&'; }
    var r := ReceiptId(s);
    var i: nat :| MatchAt(s, i) && (forall j :: 0 <= j < i ==> !MatchAt(s, j)) && CapturedAt(s, i, r.value);
    assert i == 5;
    assert r.value == s[8..10] == "7a";
  }

  // ================================================================ actions

  datatype Action = View | SendEmail | SetStatus(target: string) | Delete | Download | Close

  /** The buttons in a table row, left to right. */
  function RowActions(d: Document): seq<Action> {
    [View]
    + (if d.status == "Completed" && !IsTruthyBool(d.email_sent) then [SendEmail] else [])
    + (if d.status == "Pending" then [SetStatus("Processing"), SetStatus("Rejected")] else [])
    + [Delete]
  }

  /** Which row actions are offered in which status. */
  lemma RowActionsByStatus(d: Document, t: string)
    ensures View in RowActions(d) && Delete in RowActions(d)
    ensures SendEmail in RowActions(d) <==> d.status == "Completed" && !IsTruthyBool(d.email_sent)
    ensures SetStatus(t) in RowActions(d) <==> d.status == "Pending" && (t == "Processing" || t == "Rejected")
    ensures Download !in RowActions(d) && Close !in RowActions(d)
  {
  }

  /** The buttons in the footer of the detail modal. */
  function ModalActions(d: Document): seq<Action> {
    (if d.status == "Approved" then [Download] else [])
    + (if d.status == "Approved" && !IsTruthyBool(d.email_sent) then [SendEmail] else [])
    + (if d.status == "Pending" then [SetStatus("Approved"), SetStatus("Rejected")] else [])
    + [Close]
  }
  /** The modal footer by status: Download only for "Approved"; Send Email for
      "Approved" not yet e-mailed; Approve/Reject iff "Pending"; Close always. */
  lemma ModalActionsByStatus(d: Document, t: string)
    ensures Close in ModalActions(d)
    ensures Download in ModalActions(d) <==> d.status == "Approved"
    ensures SendEmail in ModalActions(d) <==> d.status == "Approved" && !IsTruthyBool(d.email_sent)
    ensures SetStatus(t) in ModalActions(d) <==> d.status == "Pending" && (t == "Approved" || t == "Rejected")
    ensures View !in ModalActions(d) && Delete !in ModalActions(d)
  {
  }


  /** The modal offers the certificate composer only for a request being processed. */
  predicate ShowsCertificate(d: Document) {
    d.status == "Processing"
  }

  /** The table and the modal disagree on where a pending request goes: the table
      moves it to "Processing", which opens the certificate composer; the modal
      moves it to "Approved", where the table offers nothing but view and delete. */
  lemma StatusVocabulariesDiverge(d: Document, today: CalendarDate)
    requires d.status == "Pending"
    ensures SetStatus("Processing") in RowActions(d) && SetStatus("Processing") !in ModalActions(d)
    ensures SetStatus("Approved") in ModalActions(d) && SetStatus("Approved") !in RowActions(d)
    ensures ShowsCertificate(ApplyPatch(d, StatusChangePatch("Processing", today)))
    ensures var a := ApplyPatch(d, StatusChangePatch("Approved", today));
            RowActions(a) == [View, Delete] && !ShowsCertificate(a)
  {
  }

  /** Once the e-mail update is confirmed, the row no longer offers to send it. */
  lemma EmailActionGoneAfterSend(docs: seq<Document>, id: string, today: CalendarDate, i: nat)
    requires i < |docs| && docs[i].documentId == id
    ensures SendEmail !in RowActions(HandleSendEmail(docs, id, today, Replied(true)).docs[i])
  {
  }

  /** Delivering the certificate marks the request completed and e-mailed, so the
      row offers nothing but view and delete. */
  lemma DeliveryClosesRequest(d: Document, today: CalendarDate)
    ensures var a := ApplyPatch(d, Certificate.DeliveredPatch(today));
            a.status == "Completed" && RowActions(a) == [View, Delete]
  {
  }

  // ================================================================ certificate input

  /** The `documentDetails` handed to the certificate composer. The requester name
      falls back to `${first_name} ${last_name}`, which is never empty (missing
      parts read "undefined"), so the final `|| ''` never applies. */
  function CertificateDetails(d: Document): (r: Certificate.Details)
    ensures r.documentId == d.documentId
    ensures r.requester_name != ""
    ensures d.requester_name.Some? && d.requester_name.value != "" ==> r.requester_name == d.requester_name.value
    ensures d.requester_name.None? || d.requester_name == Some("") ==>
              r.requester_name == Interpolate(d.first_name) + " " + Interpolate(d.last_name)
    ensures r.requester_email == OrStr(d.requester_email, OrStr(d.email, ""))
    ensures r.document_type == OrStr(d.document_type, OrStr(d.documentType, ""))
    ensures r.residentId == OrStr(d.residentId, "")
  {
    Certificate.Details(
      OrStr(d.requester_name, Interpolate(d.first_name) + " " + Interpolate(d.last_name)),
      OrStr(d.requester_email, OrStr(d.email, "")),
      d.documentId,
      OrStr(d.document_type, OrStr(d.documentType, "")),
      OrStr(d.residentId, ""))
  }

  /** A request with neither a requester name nor first/last names is addressed as
      "undefined undefined". */
  lemma NamelessRequester(d: Document)
    requires d.requester_name.None? && d.first_name.None? && d.last_name.None?
    ensures CertificateDetails(d).requester_name == "undefined undefined"
  {
  }
}

=== FILE: js.dfy ===
/** The pieces of JavaScript value semantics the pages depend on:
    falsy values in `a || b` fallbacks and `${…}` interpolation of `undefined`. */
module Js {
  import opened Wrappers
  import Text

  /** A field the remote API may send either as a string or as a number. */
  datatype Scalar = Str(s: string) | Num(n: int)

  /** `!v`: `undefined`, the empty string and the number 0 are falsy. */
  predicate IsFalsy(v: Option<Scalar>) {
    match v
    case None => true
    case Some(Str(s)) => s == ""
    case Some(Num(n)) => n == 0
  }

  /** `${v}` for a defined scalar. */
  function Render(v: Scalar): (r: string)
    ensures v.Num? ==> Text.ParseNat(r) == (if v.n >= 0 then Some(v.n as nat) else None)
  {
    match v
    case Str(s) => s
    case Num(n) =>
      if n >= 0 then Text.ParseNatRoundTrip(n); Text.IntToString(n)
      else Text.IntToString(n)
  }

  /** `${v || fallback}`: a falsy value is replaced by the fallback text,
      so the result is never empty when the fallback is not. */
  function Or(v: Option<Scalar>, fallback: string): (r: string)
    ensures IsFalsy(v) ==> r == fallback
    ensures !IsFalsy(v) ==> r == Render(v.value)
    ensures fallback != "" ==> r != ""
  {
    if IsFalsy(v) then fallback else Render(v.value)
  }

  /** `s || fallback` for an optional string field. */
  function OrStr(s: Option<string>, fallback: string): (r: string)
    ensures r == fallback || (s.Some? && r == s.value && r != "")
    ensures s.Some? && s.value != "" ==> r == s.value
  {
    if s.Some? && s.value != "" then s.value else fallback
  }

  /** `${s}` for an optional string: `undefined` renders as the word "undefined". */
  function Interpolate(s: Option<string>): (r: string)
    ensures s.Some? ==> r == s.value
    ensures s.None? ==> r == "undefined"
  {
    s.GetOr("undefined")
  }

  /** `!b` for an optional boolean: `undefined` and `false` are falsy. */
  predicate IsTruthyBool(b: Option<bool>) {
    b == Some(true)
  }
}

=== FILE: navigation.dfy ===
/** The sidebar's navigation items and the application's route table. */
module Navigation {
  import Text
  import opened Auth

  /** The sidebar's items, top to bottom. */
  const NavLabels: seq<string> := ["Dashboard", "Officials", "Residents", "Documents Request", "Logout"]

  const LogoutLabel := "Logout"

  /** The pages the router can show. */
  datatype Page = LoginPage | DashboardPage | OfficialsPage | ResidentsPage | DocumentsPage

  /** The route table: path to page. */
  const RouteTable: seq<(string, Page)> := [
    ("/", LoginPage),
    ("/dashboard", DashboardPage),
    ("/officials", OfficialsPage),
    ("/residents", ResidentsPage),
    ("/documents request", DocumentsPage)
  ]

  /** The page a path shows, comparing the path with the route table character by
      character; the router's case-insensitive and trailing-slash-tolerant matching
      is not modelled. */
  function Route(path: string): (p: Wrappers.Option<Page>)
    ensures p.Some? <==> exists i :: 0 <= i < |RouteTable| && RouteTable[i].0 == path
    ensures p.Some? ==> exists i :: 0 <= i < |RouteTable| && RouteTable[i] == (path, p.value)
  {
    RouteIn(RouteTable, path)
  }

  function RouteIn(table: seq<(string, Page)>, path: string): (p: Wrappers.Option<Page>)
    ensures p.Some? <==> exists i :: 0 <= i < |table| && table[i].0 == path
    ensures p.Some? ==> exists i :: 0 <= i < |table| && table[i] == (path, p.value)
    decreases |table|
  {
    if |table| == 0 then Wrappers.None
    else if table[0].0 == path then Wrappers.Some(table[0].1)
    else
      var r := RouteIn(table[1..], path);
      assert forall i :: 1 <= i < |table| ==> table[i] == table[1..][i - 1];
      if r.Some? then
        var i :| 0 <= i < |table[1..]| && table[1..][i] == (path, r.value);
        assert table[i + 1] == (path, r.value);
        r
      else
        r
  }

  /** A path listed with no earlier entry for it routes to its listed page. */
  lemma {:induction false} RouteInFirst(table: seq<(string, Page)>, path: string, k: nat)
    requires k < |table| && table[k].0 == path
    requires forall j :: 0 <= j < k ==> table[j].0 != path
    ensures RouteIn(table, path) == Wrappers.Some(table[k].1)
    decreases k
  {
    if k > 0 {
      RouteInFirst(table[1..], path, k - 1);
    }
  }

  /** No path is listed twice. */
  lemma RoutePathsDistinct()
    ensures forall a, b :: 0 <= a < b < |RouteTable| ==> RouteTable[a].0 != RouteTable[b].0
  {
    var p0, p1, p2, p3, p4 := RouteTable[0].0, RouteTable[1].0, RouteTable[2].0, RouteTable[3].0, RouteTable[4].0;
    assert |p0| == 1 && |p1| == 10 && |p2| == 10 && |p3| == 10 && |p4| == 18;
    assert p1[1] == 'd' && p2[1] == 'o' && p3[1] == 'r';
  }

  /** Where a click leads and what the session holds afterwards. */
  datatype Navigated = Navigated(href: string, session: Session)

  /** A `NavItem` click: every label but "Logout" goes to "/" plus the lowercased
      label; "Logout" drops the stored user and goes to the login route. */
  function OnNavClick(name: string, session: Session): (n: Navigated)
    ensures name != LogoutLabel ==> n.session == session && n.href == "/" + Text.ToLower(name)
    ensures name == LogoutLabel ==> n.href == "/" && UserKey !in n.session
    ensures name == LogoutLabel ==> forall k :: k != UserKey ==> (k in n.session <==> k in session)
    ensures name == LogoutLabel ==> n.session == session - {UserKey}
  {
    if name != LogoutLabel then Navigated("/" + Text.ToLower(name), session)
    else Navigated("/", session - {UserKey})
  }

  /** The page each sidebar item leads to. */
  const ExpectedPages: seq<Page> := [DashboardPage, OfficialsPage, ResidentsPage, DocumentsPage, LoginPage]

  lemma DashboardTarget(session: Session)
    ensures OnNavClick(NavLabels[0], session).href == RouteTable[1].0
  {
    assert Text.ToLower("Dashboard") == "dashboard";
  }

  lemma OfficialsTarget(session: Session)
    ensures OnNavClick(NavLabels[1], session).href == RouteTable[2].0
  {
    assert Text.ToLower("Officials") == "officials";
  }

  lemma ResidentsTarget(session: Session)
    ensures OnNavClick(NavLabels[2], session).href == RouteTable[3].0
  {
    assert Text.ToLower("Residents") == "residents";
  }

  lemma DocumentsTarget(session: Session)
    ensures OnNavClick(NavLabels[3], session).href == RouteTable[4].0
  {
    var s := "Documents Request";
    var t := Text.ToLower(s);
    assert |t| == 17;
    assert t[0] == 'd' && t[9] == ' ' && t[10] == 'r';
    assert forall k :: 1 <= k < 9 || 11 <= k < 17 ==> t[k] == s[k];
    assert t == "documents request";
  }

  /** The target of the sidebar item at position `i` is the path of the route one
      further down the table (wrapping round to "/" for "Logout"). */
  lemma NavTarget(i: nat, session: Session)
    requires i < |NavLabels|
    ensures OnNavClick(NavLabels[i], session).href == RouteTable[(i + 1) % 5].0
  {
    if i == 0 {
      DashboardTarget(session);
    } else if i == 1 {
      OfficialsTarget(session);
    } else if i == 2 {
      ResidentsTarget(session);
    } else if i == 3 {
      DocumentsTarget(session);
    } else {
      assert NavLabels[4] == LogoutLabel;
    }
  }

  /** Every sidebar item lands on a route, and on the page it names; "Logout"
      lands on the login page. */
  lemma NavTargetsAreRoutes(session: Session)
    ensures forall i :: 0 <= i < |NavLabels| ==> Route(OnNavClick(NavLabels[i], session).href) == Wrappers.Some(ExpectedPages[i])
  {
    RoutePathsDistinct();
    forall i | 0 <= i < |NavLabels|
      ensures Route(OnNavClick(NavLabels[i], session).href) == Wrappers.Some(ExpectedPages[i])
    {
      NavTarget(i, session);
      var k := (i + 1) % 5;
      assert RouteTable[k].1 == ExpectedPages[i];
      RouteInFirst(RouteTable, RouteTable[k].0, k);
    }
  }

  /** Logging in and then out restores every key but "user" and leaves no user stored. */
  lemma LoginThenLogout(session: Session)
    ensures OnNavClick(LogoutLabel, HandleLogin(AdminEmail, AdminPassword, session).session).session
            == session - {UserKey}
  {
    var s := HandleLogin(AdminEmail, AdminPassword, session).session;
    assert s == session[UserKey := UserRecord(AdminEmail)];
  }

  /** A refused login followed by logout is the same as logging out directly. */
  lemma RefusedLoginThenLogout(email: string, password: string, session: Session)
    requires !(email == AdminEmail && password == AdminPassword)
    ensures OnNavClick(LogoutLabel, HandleLogin(email, password, session).session)
            == OnNavClick(LogoutLabel, session)
  {
  }
}

=== FILE: officials.dfy ===
/** The officials page: the add-official form and its required-field check, the
    delete sequence, and the status badge. */
module Officials {
  import opened Wrappers
  import opened Js
  import opened Api

  /** The add-official form state. */
  datatype OfficialForm = OfficialForm(position: string, start_term: string, end_term: string,
                                       status: string, resident_id: string)

  /** The form as the page first shows it. */
  const DefaultForm := OfficialForm("", "", "", "Active", "")

  const FillAllFields := "Please fill in all fields"

  /** The four fields `handleAdd` insists on; `status` is not among them. */
  predicate FormComplete(f: OfficialForm) {
    f.position != "" && f.start_term != "" && f.end_term != "" && f.resident_id != ""
  }

  /** What adding leaves behind: an alert and no request, or the form posted as
      it stands, with the modal closed (and the page reloaded) iff the helper's
      return was truthy. */
  datatype AddEffect = Refused(alert: string) | Posted(form: OfficialForm, closed: bool)

  function HandleAdd(f: OfficialForm, res: Returned): (e: AddEffect)
    ensures e.Refused? <==> !FormComplete(f)
    ensures e.Refused? ==> e.alert == FillAllFields
    ensures e.Posted? ==> e.form == f && (e.closed <==> IsTruthy(res))
  {
    if f.position == "" || f.start_term == "" || f.end_term == "" || f.resident_id == "" then
      Refused(FillAllFields)
    else
      Posted(f, IsTruthy(res))
  }

  /** The untouched form cannot be submitted: position, terms and resident are empty. */
  lemma DefaultFormRefused(res: Returned)
    ensures HandleAdd(DefaultForm, res) == Refused(FillAllFields)
    ensures DefaultForm.status == "Active"
  {
  }

  /** Any single required field left empty refuses the form, whatever the others hold. */
  lemma EachFieldRequired(f: OfficialForm, res: Returned)
    ensures HandleAdd(f.(position := ""), res).Refused?
    ensures HandleAdd(f.(start_term := ""), res).Refused?
    ensures HandleAdd(f.(end_term := ""), res).Refused?
    ensures HandleAdd(f.(resident_id := ""), res).Refused?
  {
  }

  /** The status field is never checked: clearing it does not change the verdict. */
  lemma StatusNotRequired(f: OfficialForm, res: Returned)
    ensures HandleAdd(f.(status := ""), res).Refused? == HandleAdd(f, res).Refused?
  {
  }

  // ================================================================ delete

  /** An official row as the page reads it; either id may be missing. */
  datatype Official = Official(official_id: Option<string>, resident_id: Option<string>, status: Option<string>)

  /** The requests `handleDelete` issues, with the URL's id segment as interpolated. */
  datatype Call = PutResidentStatus(residentId: string, status: string) | DeleteOfficial(officialId: string)

  /** The requests issued, in order, and whether the dialog closes (and the page reloads). */
  datatype DeleteEffect = DeleteEffect(calls: seq<Call>, closed: bool)

  /** `handleDelete`: with an official selected, hand the resident back to
      "Accepted" first, then delete the official record; the outcome of the first
      request is awaited but never inspected. */
  function HandleDelete(selected: Option<Official>, putRes: Returned, deleteRes: Returned): (e: DeleteEffect)
    ensures selected.None? ==> e.calls == [] && !e.closed
    ensures selected.Some? ==> |e.calls| == 2
    ensures selected.Some? ==> e.calls[0] == PutResidentStatus(Interpolate(selected.value.resident_id), "Accepted")
    ensures selected.Some? ==> e.calls[1] == DeleteOfficial(Interpolate(selected.value.official_id))
    ensures e.closed <==> selected.Some? && IsTruthy(deleteRes)
  {
    match selected
    case None => DeleteEffect([], false)
    case Some(o) =>
      DeleteEffect([PutResidentStatus(Interpolate(o.resident_id), "Accepted"),
                    DeleteOfficial(Interpolate(o.official_id))],
                   IsTruthy(deleteRes))
  }

  /** The delete goes out and is judged the same whatever the first request returned. */
  lemma DeleteIgnoresPutOutcome(selected: Option<Official>, p1: Returned, p2: Returned, d: Returned)
    ensures HandleDelete(selected, p1, d) == HandleDelete(selected, p2, d)
  {
  }

  /** The resident is handed back before the official is removed. */
  lemma ResidentRestoredFirst(o: Official, p: Returned, d: Returned)
    ensures var calls := HandleDelete(Some(o), p, d).calls;
            calls[0].PutResidentStatus? && calls[1].DeleteOfficial?
  {
  }

  // ================================================================ badge

  /** The status badge's class. */
  function BadgeClass(status: Option<string>): (c: string)
    ensures c == "active" || c == "inactive"
  {
    if status == Some("Active") then "active" else "inactive"
  }

  /** 'active' exactly for the status "Active"; any other text, or none, is 'inactive'. */
  lemma BadgeClassIff(status: Option<string>)
    ensures BadgeClass(status) == "active" <==> status == Some("Active")
    ensures BadgeClass(status) == "inactive" <==> status != Some("Active")
    ensures BadgeClass(Some("active")) == "inactive"
  {
  }
}

=== FILE: records.dfy ===
/** The document-request record as the records API returns it, and the partial
    updates the pages send back (`PUT /document/:id`). */
module Records {
  import opened Wrappers
  import opened Dates

  /** A document request. Optional fields are the ones the API may leave out.
      `timestamp` is the already-parsed request time (None when `new Date(...)`
      would be invalid); `receiptFile` is the `file` string of the receipt, when
      the receipt carries one. */
  datatype Document = Document(
    documentId: string,
    requester_name: Option<string>,
    first_name: Option<string>,
    last_name: Option<string>,
    requester_email: Option<string>,
    email: Option<string>,
    document_type: Option<string>,
    documentType: Option<string>,
    status: string,
    timestamp: Option<YearMonth>,
    approval_date: Option<string>,
    email_sent: Option<bool>,
    email_sent_date: Option<string>,
    receiptFile: Option<string>,
    residentId: Option<string>)

  /** A `Partial<Document>` update body; `None` means the key is absent. */
  datatype Patch = Patch(
    status: Option<string>,
    approval_date: Option<string>,
    email_sent: Option<bool>,
    email_sent_date: Option<string>)

  /** `{ ...doc, ...patch }`: every key present in the patch overwrites the
      document's field; nothing else changes. */
  function ApplyPatch(d: Document, p: Patch): (r: Document)
    ensures r.status == p.status.GetOr(d.status)
    ensures p.approval_date.Some? ==> r.approval_date == p.approval_date
    ensures p.email_sent.Some? ==> r.email_sent == p.email_sent
    ensures p.email_sent_date.Some? ==> r.email_sent_date == p.email_sent_date
    ensures p.approval_date.None? ==> r.approval_date == d.approval_date
    ensures p.email_sent.None? ==> r.email_sent == d.email_sent
    ensures p.email_sent_date.None? ==> r.email_sent_date == d.email_sent_date
    ensures r.(status := d.status, approval_date := d.approval_date,
               email_sent := d.email_sent, email_sent_date := d.email_sent_date) == d
  {
    d.(status := p.status.GetOr(d.status),
       approval_date := if p.approval_date.Some? then p.approval_date else d.approval_date,
       email_sent := if p.email_sent.Some? then p.email_sent else d.email_sent,
       email_sent_date := if p.email_sent_date.Some? then p.email_sent_date else d.email_sent_date)
  }

  /** Applying the same update twice is the same as applying it once. */
  lemma ApplyPatchIdempotent(d: Document, p: Patch)
    ensures ApplyPatch(ApplyPatch(d, p), p) == ApplyPatch(d, p)
  {
  }
}

=== FILE: residents.dfy ===
/** The residents page: the stored record turned into a list, the Pending/Accepted
    partition, the notification badge and the "accept" action. */
module Residents {
  import opened Wrappers
  import Seqs
  import opened Api

  /** A stored resident as fetched; `own_id` is a `resident_id` field the record
      may carry itself. Fields the page only displays are left out. */
  datatype RawResident = RawResident(own_id: Option<string>, status: Option<string>)

  /** A list entry: `{ resident_id: key, ...record }`. */
  datatype Resident = Resident(resident_id: string, status: Option<string>)

  /** The fetched object as its keys enumerate, paired with their records. */
  type ResidentsData = seq<(string, RawResident)>

  /** The spread comes after `resident_id: key`, so a record's own id wins. */
  function Entry(key: string, raw: RawResident): (r: Resident)
    ensures r.status == raw.status
    ensures raw.own_id.None? ==> r.resident_id == key
    ensures raw.own_id.Some? ==> r.resident_id == raw.own_id.value
  {
    Resident(if raw.own_id.Some? then raw.own_id.value else key, raw.status)
  }

  /** One entry per key, in key order; no data yet gives the empty list. */
  function ToList(data: Option<ResidentsData>): (rs: seq<Resident>)
    ensures data.None? ==> rs == []
    ensures data.Some? ==> |rs| == |data.value|
    ensures data.Some? ==> forall i :: 0 <= i < |rs| ==> rs[i] == Entry(data.value[i].0, data.value[i].1)
  {
    if data.None? then []
    else seq(|data.value|, i requires 0 <= i < |data.value| => Entry(data.value[i].0, data.value[i].1))
  }

  /** When no record carries its own id, the ids are exactly the keys, in order. */
  lemma IdsAreKeys(data: ResidentsData)
    requires forall i :: 0 <= i < |data| ==> data[i].1.own_id.None?
    ensures forall i :: 0 <= i < |data| ==> ToList(Some(data))[i].resident_id == data[i].0
  {
  }

  predicate IsPending(r: Resident) {
    r.status == Some("Pending")
  }

  predicate IsAccepted(r: Resident) {
    r.status == Some("Accepted")
  }

  predicate IsOther(r: Resident) {
    !IsPending(r) && !IsAccepted(r)
  }

  function Pending(rs: seq<Resident>): (p: seq<Resident>)
    ensures forall r :: r in p <==> r in rs && r.status == Some("Pending")
    ensures Seqs.IsSubsequence(p, rs)
    ensures forall r :: multiset(p)[r] == if IsPending(r) then multiset(rs)[r] else 0
  {
    Seqs.FilterIsSubsequence(IsPending, rs);
    Seqs.Filter(IsPending, rs)
  }

  function Accepted(rs: seq<Resident>): (a: seq<Resident>)
    ensures forall r :: r in a <==> r in rs && r.status == Some("Accepted")
    ensures Seqs.IsSubsequence(a, rs)
    ensures forall r :: multiset(a)[r] == if IsAccepted(r) then multiset(rs)[r] else 0
  {
    Seqs.FilterIsSubsequence(IsAccepted, rs);
    Seqs.Filter(IsAccepted, rs)
  }

  /** The two lists never share an entry, and a resident with any other status
      (or none) is in neither. */
  lemma PartitionDisjoint(rs: seq<Resident>)
    ensures forall r :: !(r in Pending(rs) && r in Accepted(rs))
    ensures forall r :: r in rs && IsOther(r) ==> r !in Pending(rs) && r !in Accepted(rs)
  {
  }

  /** Pending, accepted and the rest account for every entry exactly once. */
  lemma {:induction false} PartitionCounts(rs: seq<Resident>)
    ensures |Pending(rs)| + |Accepted(rs)| + Seqs.Count(IsOther, rs) == |rs|
    decreases |rs|
  {
    if |rs| > 0 {
      PartitionCounts(rs[..|rs| - 1]);
    }
  }

  /** `pendingCount`. */
  function PendingCount(rs: seq<Resident>): (n: nat)
    ensures n == Seqs.Count(IsPending, rs)
    ensures n <= |rs|
  {
    |Pending(rs)|
  }

  /** The badge on "View Pending Requests" is shown iff some resident is pending. */
  function ShowsBadge(rs: seq<Resident>): (b: bool)
    ensures b <==> exists i :: 0 <= i < |rs| && rs[i].status == Some("Pending")
  {
    if exists i :: 0 <= i < |rs| && rs[i].status == Some("Pending") then
      var i :| 0 <= i < |rs| && rs[i].status == Some("Pending");
      assert rs[i] in Pending(rs);
      PendingCount(rs) > 0
    else
      PendingCount(rs) > 0
  }

  // ================================================================ accept

  /** `putData('residents', id, { status: 'Accepted' })`. */
  datatype StatusPut = StatusPut(residentId: string, status: string)

  /** What accepting leaves behind: the request, and whether the success alert
      was shown (the page reloads exactly when it is). */
  datatype AcceptEffect = AcceptEffect(request: StatusPut, alerted: bool)

  /** `handleAcceptResident` as written: the alert follows `if (res)`, so it also
      fires when the request failed and the helper returned the caught error. */
  function AcceptResident(id: string, res: Returned): (e: AcceptEffect)
    ensures e.request == StatusPut(id, "Accepted")
    ensures res == Caught ==> e.alerted
    ensures res == Body(false) ==> !e.alerted
    ensures e.alerted <==> IsTruthy(res)
  {
    AcceptEffect(StatusPut(id, "Accepted"), IsTruthy(res))
  }

  /** A failed request still announces "Resident accepted successfully". */
  lemma AcceptAlertsOnFailedRequest(id: string)
    ensures AcceptResident(id, Caught).alerted
  {
  }

  /** Accepting as intended: the alert only when the server answered with a
      truthy body. */
  function AcceptResidentChecked(id: string, res: Returned): (e: AcceptEffect)
    ensures e.request == StatusPut(id, "Accepted")
    ensures e.alerted <==> res == Body(true)
  {
    AcceptEffect(StatusPut(id, "Accepted"), res.Body? && res.truthy)
  }

  /** The two versions differ only on a failed request. */
  lemma AcceptVersionsAgreeOnAnswers(id: string, res: Returned)
    ensures res.Body? ==> AcceptResident(id, res) == AcceptResidentChecked(id, res)
    ensures res.Caught? ==> AcceptResident(id, res).alerted && !AcceptResidentChecked(id, res).alerted
  {
  }

  // ================================================================ after the reload

  /** The store after a status put. The server is not part of this model; it is
      assumed to write the status into the record whose KEY is the id in the URL,
      exactly when the request did not throw. */
  function StoreStatus(data: ResidentsData, key: string, status: string): (r: ResidentsData)
    ensures |r| == |data|
    ensures forall i :: 0 <= i < |data| ==> r[i].0 == data[i].0 && r[i].1.own_id == data[i].1.own_id
    ensures forall i :: 0 <= i < |data| && data[i].0 == key ==> r[i].1.status == Some(status)
    ensures forall i :: 0 <= i < |data| && data[i].0 != key ==> r[i] == data[i]
    decreases |data|
  {
    if |data| == 0 then []
    else
      var last := data[|data| - 1];
      StoreStatus(data[..|data| - 1], key, status)
      + [if last.0 == key then (last.0, last.1.(status := Some(status))) else last]
  }

  function StoreAfterPut(data: ResidentsData, put: StatusPut, res: Returned): ResidentsData {
    if res.Caught? then data else StoreStatus(data, put.residentId, put.status)
  }

  /** What the page lists after "Accept": the refetched store when the alert
      reloaded the page, the list it already showed otherwise. */
  function ListAfterAccept(data: ResidentsData, id: string, res: Returned): seq<Resident> {
    var e := AcceptResident(id, res);
    if e.alerted then ToList(Some(StoreAfterPut(data, e.request, res))) else ToList(Some(data))
  }

  /** After a truthy reply, every record stored under the key `id` is listed as accepted. */
  lemma AcceptedAfterAccept(data: ResidentsData, id: string)
    ensures forall i :: 0 <= i < |data| && data[i].0 == id ==> IsAccepted(ListAfterAccept(data, id, Body(true))[i])
  {
  }

  /** The list only changes on a truthy reply: a failed request announces success
      and reloads to the same list, and a falsy reply leaves the old list on screen. */
  lemma ListChangesOnlyOnTruthyReply(data: ResidentsData, id: string)
    ensures AcceptResident(id, Caught).alerted && ListAfterAccept(data, id, Caught) == ToList(Some(data))
    ensures !AcceptResident(id, Body(false)).alerted && ListAfterAccept(data, id, Body(false)) == ToList(Some(data))
  {
  }

  /** A record that carries its own `resident_id` is listed under that id, and the
      put goes to that id as a key: when no record is stored under it, accepting
      leaves the listed request pending. */
  lemma OwnIdMissesItsRecord(data: ResidentsData, i: int)
    requires 0 <= i < |data|
    requires data[i].1.own_id.Some? && data[i].1.status == Some("Pending")
    requires forall j :: 0 <= j < |data| ==> data[j].0 != data[i].1.own_id.value
    ensures IsPending(ListAfterAccept(data, ToList(Some(data))[i].resident_id, Body(true))[i])
  {
  }

  /** Reference count: the pending records of the store. */
  function PendingIn(data: ResidentsData): nat
    decreases |data|
  {
    if |data| == 0 then 0
    else PendingIn(data[..|data| - 1]) + (if data[|data| - 1].1.status == Some("Pending") then 1 else 0)
  }

  /** Reference count: the pending records stored under `key`. */
  function PendingUnder(data: ResidentsData, key: string): nat
    decreases |data|
  {
    if |data| == 0 then 0
    else PendingUnder(data[..|data| - 1], key)
         + (if data[|data| - 1].0 == key && data[|data| - 1].1.status == Some("Pending") then 1 else 0)
  }

  lemma {:induction false} PendingCountIsPendingIn(data: ResidentsData)
    ensures PendingCount(ToList(Some(data))) == PendingIn(data)
    decreases |data|
  {
    if |data| > 0 {
      var init := data[..|data| - 1];
      PendingCountIsPendingIn(init);
      assert ToList(Some(data))[..|data| - 1] == ToList(Some(init));
    }
  }

  lemma {:induction false} StoreAcceptedShrinksPending(data: ResidentsData, key: string)
    ensures PendingIn(StoreStatus(data, key, "Accepted")) + PendingUnder(data, key) == PendingIn(data)
    decreases |data|
  {
    if |data| > 0 {
      var init := data[..|data| - 1];
      StoreAcceptedShrinksPending(init, key);
      var s := StoreStatus(data, key, "Accepted");
      assert s[..|data| - 1] == StoreStatus(init, key, "Accepted");
    }
  }

  /** After a truthy reply the badge count drops by exactly the pending records
      stored under the accepted key. */
  lemma AcceptShrinksPending(data: ResidentsData, id: string)
    ensures PendingCount(ListAfterAccept(data, id, Body(true))) + PendingUnder(data, id)
            == PendingCount(ToList(Some(data)))
  {
    PendingCountIsPendingIn(data);
    PendingCountIsPendingIn(StoreStatus(data, id, "Accepted"));
    StoreAcceptedShrinksPending(data, id);
  }
}

=== FILE: seqs.dfy ===
/** Generic sequence helpers shared by the list operations of the pages:
    `Array.prototype.filter`, counting, and the order-preserving subsequence relation. */
module Seqs {

  /** `a` can be obtained from `b` by deleting elements, without reordering. */
  ghost predicate IsSubsequence<T>(a: seq<T>, b: seq<T>)
    decreases |b|
  {
    || |a| == 0
    || (&& |b| > 0
        && (|| (a[|a| - 1] == b[|b| - 1] && IsSubsequence(a[..|a| - 1], b[..|b| - 1]))
            || IsSubsequence(a, b[..|b| - 1])))
  }

  /** `xs.filter(p)`: keeps the elements satisfying `p`, in their original order. */
  function Filter<T(!new)>(p: T -> bool, xs: seq<T>): (r: seq<T>)
    ensures |r| <= |xs|
    ensures forall x :: x in r <==> x in xs && p(x)
    ensures forall x :: multiset(r)[x] == if p(x) then multiset(xs)[x] else 0
    decreases |xs|
  {
    if |xs| == 0 then []
    else
      var init := xs[..|xs| - 1];
      var last := xs[|xs| - 1];
      assert xs == init + [last];
      var rest := Filter(p, init);
      if p(last) then rest + [last] else rest
  }

  /** `Filter` preserves the relative order of the elements it keeps. */
  lemma {:induction false} FilterIsSubsequence<T(!new)>(p: T -> bool, xs: seq<T>)
    ensures IsSubsequence(Filter(p, xs), xs)
    decreases |xs|
  {
    if |xs| > 0 {
      var init := xs[..|xs| - 1];
      var rest := Filter(p, init);
      FilterIsSubsequence(p, init);
      if p(xs[|xs| - 1]) {
        assert (rest + [xs[|xs| - 1]])[..|rest|] == rest;
      }
    }
  }

  /** When every element satisfies `p`, filtering keeps the whole sequence. */
  lemma {:induction false} FilterKeepsAll<T(!new)>(p: T -> bool, xs: seq<T>)
    ensures (forall i :: 0 <= i < |xs| ==> p(xs[i])) ==> Filter(p, xs) == xs
    decreases |xs|
  {
    if |xs| > 0 {
      var init := xs[..|xs| - 1];
      var last := xs[|xs| - 1];
      assert xs == init + [last];
      FilterKeepsAll(p, init);
    }
  }

  /** The number of elements of `xs` satisfying `p`. */
  function Count<T(!new)>(p: T -> bool, xs: seq<T>): (n: nat)
    ensures n == |Filter(p, xs)|
    ensures n <= |xs|
    decreases |xs|
  {
    if |xs| == 0 then 0
    else Count(p, xs[..|xs| - 1]) + (if p(xs[|xs| - 1]) then 1 else 0)
  }

  /** Counting the occurrences of one value agrees with the multiset of the sequence. */
  lemma {:induction false} CountEqualsMultiplicity<T(!new)>(xs: seq<T>, v: T)
    ensures Count(x => x == v, xs) == multiset(xs)[v]
    decreases |xs|
  {
    if |xs| > 0 {
      var init := xs[..|xs| - 1];
      assert xs == init + [xs[|xs| - 1]];
      CountEqualsMultiplicity(init, v);
    }
  }

  /** Counting splits over concatenation. */
  lemma {:induction false} CountAppend<T(!new)>(p: T -> bool, xs: seq<T>, x: T)
    ensures Count(p, xs + [x]) == Count(p, xs) + (if p(x) then 1 else 0)
  {
    assert (xs + [x])[..|xs|] == xs;
  }
}

=== FILE: tally.dfy ===
/** The `reduce` histogram the dashboard builds for its pie charts:
    find the entry with the same name and increment it, or push a new one. */
module Tally {
  import Seqs

  /** A chart datum `{ name, value }`. */
  datatype Entry = Entry(name: string, value: nat)

  /** No name appears twice. */
  ghost predicate DistinctNames(es: seq<Entry>) {
    forall i, j :: 0 <= i < j < |es| ==> es[i].name != es[j].name
  }

  /** The sum of the values. */
  function Total(es: seq<Entry>): nat
    decreases |es|
  {
    if |es| == 0 then 0 else Total(es[..|es| - 1]) + es[|es| - 1].value
  }

  /** `acc.find(item => item.name === name)`, as an index; -1 when absent. */
  function Find(es: seq<Entry>, name: string): (i: int)
    ensures -1 <= i < |es|
    ensures i >= 0 ==> es[i].name == name && forall j :: 0 <= j < i ==> es[j].name != name
    ensures i < 0 ==> forall j :: 0 <= j < |es| ==> es[j].name != name
    decreases |es|
  {
    if |es| == 0 then -1
    else
      var i := Find(es[..|es| - 1], name);
      if i >= 0 then i
      else if es[|es| - 1].name == name then |es| - 1
      else -1
  }

  /** The value shown for `name`, or 0 when the chart has no such slice. */
  function ValueOf(es: seq<Entry>, name: string): nat {
    var i := Find(es, name);
    if i >= 0 then es[i].value else 0
  }

  /** Increasing one entry by one increases the total by one. */
  lemma {:induction false} TotalIncrement(es: seq<Entry>, i: nat)
    requires i < |es|
    ensures Total(es[i := es[i].(value := es[i].value + 1)]) == Total(es) + 1
    decreases |es|
  {
    var es' := es[i := es[i].(value := es[i].value + 1)];
    assert es'[..|es'| - 1] == if i < |es| - 1 then es[..|es| - 1][i := es[i].(value := es[i].value + 1)] else es[..|es| - 1];
    if i < |es| - 1 {
      TotalIncrement(es[..|es| - 1], i);
    }
  }

  /** Appending an entry adds its value to the total. */
  lemma TotalAppend(es: seq<Entry>, e: Entry)
    ensures Total(es + [e]) == Total(es) + e.value
  {
    assert (es + [e])[..|es|] == es;
  }

  /** Totals grow one entry at a time along prefixes. */
  lemma TotalPrefixStep(es: seq<Entry>, k: nat)
    requires k < |es|
    ensures Total(es[..k + 1]) == Total(es[..k]) + es[k].value
  {
    assert es[..k + 1][..k] == es[..k];
  }

  /** A tally whose every value is zero totals zero. */
  lemma {:induction false} TotalZero(es: seq<Entry>)
    requires forall j :: 0 <= j < |es| ==> es[j].value == 0
    ensures Total(es) == 0
    decreases |es|
  {
    if |es| > 0 {
      TotalZero(es[..|es| - 1]);
    }
  }

  /** One reduction step: count one more occurrence of `name`. */
  function Bump(es: seq<Entry>, name: string): (r: seq<Entry>)
    requires DistinctNames(es)
    ensures DistinctNames(r)
    ensures Total(r) == Total(es) + 1
    ensures ValueOf(r, name) == ValueOf(es, name) + 1
    ensures forall n :: n != name ==> ValueOf(r, n) == ValueOf(es, n)
    ensures |r| == |es| || (|r| == |es| + 1 && r[|es|] == Entry(name, 1))
    ensures forall j :: 0 <= j < |es| ==> r[j].name == es[j].name && r[j].value >= es[j].value
  {
    var i := Find(es, name);
    if i >= 0 then
      BumpExisting(es, name, i);
      es[i := es[i].(value := es[i].value + 1)]
    else
      BumpNew(es, name);
      es + [Entry(name, 1)]
  }

  /** The increment branch of `Bump`. */
  lemma BumpExisting(es: seq<Entry>, name: string, i: nat)
    requires DistinctNames(es)
    requires i < |es| && Find(es, name) == i
    ensures var r := es[i := es[i].(value := es[i].value + 1)];
            && DistinctNames(r)
            && Total(r) == Total(es) + 1
            && ValueOf(r, name) == ValueOf(es, name) + 1
            && forall n :: n != name ==> ValueOf(r, n) == ValueOf(es, n)
  {
    var r := es[i := es[i].(value := es[i].value + 1)];
    TotalIncrement(es, i);
    forall n | n != name ensures Find(r, n) == Find(es, n) {
      FindSameNames(es, r, n);
    }
    FindSameNames(es, r, name);
  }

  /** The push branch of `Bump`. */
  lemma BumpNew(es: seq<Entry>, name: string)
    requires DistinctNames(es)
    requires Find(es, name) < 0
    ensures var r := es + [Entry(name, 1)];
            && DistinctNames(r)
            && Total(r) == Total(es) + 1
            && ValueOf(r, name) == ValueOf(es, name) + 1
            && forall n :: n != name ==> ValueOf(r, n) == ValueOf(es, n)
  {
    var r := es + [Entry(name, 1)];
    TotalAppend(es, Entry(name, 1));
    assert r[..|es|] == es;
    forall n | n != name ensures Find(r, n) == Find(es, n) {
      assert r[..|es|] == es;
    }
  }

  /** `Find` only looks at names. */
  lemma {:induction false} FindSameNames(a: seq<Entry>, b: seq<Entry>, name: string)
    requires |a| == |b|
    requires forall j :: 0 <= j < |a| ==> a[j].name == b[j].name
    ensures Find(a, name) == Find(b, name)
    decreases |a|
  {
    if |a| > 0 {
      FindSameNames(a[..|a| - 1], b[..|b| - 1], name);
    }
  }

  /** `keys.reduce(bump, [])`: one entry per distinct key, in order of first
      appearance, valued by the number of occurrences. */
  function Count(keys: seq<string>): (r: seq<Entry>)
    ensures DistinctNames(r)
    ensures Total(r) == |keys|
    ensures forall j :: 0 <= j < |r| ==> r[j].value >= 1 && r[j].name in keys
    ensures forall name :: ValueOf(r, name) == multiset(keys)[name]
    decreases |keys|
  {
    if |keys| == 0 then []
    else
      var init := keys[..|keys| - 1];
      var key := keys[|keys| - 1];
      assert keys == init + [key];
      var acc := Count(init);
      var r := Bump(acc, key);
      assert forall j :: 0 <= j < |r| ==> r[j].value >= 1 && r[j].name in keys by {
        forall j | 0 <= j < |r| ensures r[j].value >= 1 && r[j].name in keys {
          if j < |acc| {
            assert acc[j].name in init;
          }
        }
      }
      r
  }

  /** Every key of the input shows up as a slice of the chart. */
  lemma CountCoversKeys(keys: seq<string>, k: string)
    requires k in keys
    ensures exists j :: 0 <= j < |Count(keys)| && Count(keys)[j].name == k
  {
    var r := Count(keys);
    assert multiset(keys)[k] > 0;
    assert ValueOf(r, k) > 0;
    assert Find(r, k) >= 0;
  }
}

=== FILE: text.dfy ===
/** String algorithms the pages rely on from the JavaScript runtime:
    ASCII `toLowerCase`, `includes`, `trim`, decimal rendering of numbers,
    and the splitting helpers used to read formatted dates back. */
module Text {
  import opened Wrappers

  // ---------------------------------------------------------------- case

  /** ASCII lower-casing of one character; every other character is kept. */
  function LowerChar(c: char): char {
    if 'A' <= c <= 'Z' then (c as int + 32) as char else c
  }

  /** `s.toLowerCase()` restricted to ASCII letters. */
  function ToLower(s: string): (r: string)
    ensures |r| == |s|
    ensures forall i :: 0 <= i < |s| ==> r[i] == LowerChar(s[i])
    ensures forall i :: 0 <= i < |r| ==> !('A' <= r[i] <= 'Z')
  {
    seq(|s|, i requires 0 <= i < |s| => LowerChar(s[i]))
  }

  lemma ToLowerIdempotent(s: string)
    ensures ToLower(ToLower(s)) == ToLower(s)
  {
  }

  // ---------------------------------------------------------------- includes

  predicate IsPrefix(p: string, s: string) {
    |p| <= |s| && s[..|p|] == p
  }

  /** `s.includes(sub)`: scans the start positions of `s` from the left. */
  predicate Contains(s: string, sub: string)
    decreases |s|
  {
    IsPrefix(sub, s) || (|s| > 0 && Contains(s[1..], sub))
  }

  /** `sub` occurs in `s` starting at index `i`. */
  ghost predicate OccursAt(s: string, sub: string, i: int) {
    0 <= i && i + |sub| <= |s| && s[i..i + |sub|] == sub
  }

  /** The scanning definition agrees with "there is a position where `sub` occurs". */
  lemma {:induction false} ContainsIffOccurs(s: string, sub: string)
    ensures Contains(s, sub) <==> exists i :: OccursAt(s, sub, i)
    decreases |s|
  {
    if IsPrefix(sub, s) {
      assert OccursAt(s, sub, 0);
    } else if |s| > 0 {
      ContainsIffOccurs(s[1..], sub);
      if exists i :: OccursAt(s[1..], sub, i) {
        var i :| OccursAt(s[1..], sub, i);
        assert s[i + 1..i + 1 + |sub|] == s[1..][i..i + |sub|];
        assert OccursAt(s, sub, i + 1);
      }
      if exists i :: OccursAt(s, sub, i) {
        var i :| OccursAt(s, sub, i);
        assert i != 0;
        assert s[1..][i - 1..i - 1 + |sub|] == s[i..i + |sub|];
        assert OccursAt(s[1..], sub, i - 1);
      }
    }
  }

  /** Every string includes the empty string (so an empty search term matches everything). */
  lemma ContainsEmpty(s: string)
    ensures Contains(s, "")
  {
    assert IsPrefix("", s);
  }

  /** `includes` is transitive: a string containing `b` contains everything `b` contains. */
  lemma ContainsTransitive(a: string, b: string, c: string)
    requires Contains(a, b) && Contains(b, c)
    ensures Contains(a, c)
  {
    ContainsIffOccurs(a, b);
    ContainsIffOccurs(b, c);
    var i :| OccursAt(a, b, i);
    var j :| OccursAt(b, c, j);
    assert i + |b| <= |a| && a[i..i + |b|] == b;
    assert j + |c| <= |b| && b[j..j + |c|] == c;
    forall k | 0 <= k < |c|
      ensures a[i + j + k] == c[k]
    {
      assert a[i..i + |b|][j + k] == b[j + k];
      assert b[j..j + |c|][k] == c[k];
    }
    assert a[i + j..i + j + |c|] == c;
    assert OccursAt(a, c, i + j);
    ContainsIffOccurs(a, c);
  }

  // ---------------------------------------------------------------- trim

  /** The characters `String.prototype.trim` removes: ECMAScript WhiteSpace
      (including every space separator) and LineTerminator. */
  predicate IsSpace(c: char) {
    || c == '\t' || c == '\n' || c == '\U{000B}' || c == '\U{000C}' || c == '\r' || c == ' '
    || c == '\U{00A0}' || c == '\U{1680}' || ('\U{2000}' <= c <= '\U{200A}')
    || c == '\U{2028}' || c == '\U{2029}' || c == '\U{202F}' || c == '\U{205F}'
    || c == '\U{3000}' || c == '\U{FEFF}'
  }

  /** Drops leading white space. */
  function TrimStart(s: string): (r: string)
    ensures |r| <= |s| && r == s[|s| - |r|..]
    ensures |r| > 0 ==> !IsSpace(r[0])
    ensures forall k :: 0 <= k < |s| - |r| ==> IsSpace(s[k])
    decreases |s|
  {
    if |s| > 0 && IsSpace(s[0]) then TrimStart(s[1..]) else s
  }

  /** Drops trailing white space. */
  function TrimEnd(s: string): (r: string)
    ensures |r| <= |s| && r == s[..|r|]
    ensures |r| > 0 ==> !IsSpace(r[|r| - 1])
    ensures forall k :: |r| <= k < |s| ==> IsSpace(s[k])
    decreases |s|
  {
    if |s| > 0 && IsSpace(s[|s| - 1]) then TrimEnd(s[..|s| - 1]) else s
  }

  /** `s.trim()`. The result is empty exactly when `s` is all white space. */
  function Trim(s: string): (r: string)
    ensures |r| > 0 ==> !IsSpace(r[0]) && !IsSpace(r[|r| - 1])
    ensures |r| == 0 <==> forall k :: 0 <= k < |s| ==> IsSpace(s[k])
    ensures |r| > 0 ==> exists k :: 0 <= k < |s| && !IsSpace(s[k])
  {
    var t := TrimStart(s);
    var r := TrimEnd(t);
    if |r| > 0 then assert r[0] == t[0]; r else r
  }

  /** Trimming twice is trimming once. */
  lemma TrimIdempotent(s: string)
    ensures Trim(Trim(s)) == Trim(s)
  {
    var r := Trim(s);
    assert TrimStart(r) == r;
    assert TrimEnd(r) == r;
  }

  // ---------------------------------------------------------------- numbers

  predicate IsDigit(c: char) {
    '0' <= c <= '9'
  }

  function DigitChar(d: nat): char
    requires d < 10
  {
    ('0' as int + d) as char
  }

  /** Non-empty and made of decimal digits only. */
  predicate IsDigits(s: string) {
    |s| > 0 && forall i :: 0 <= i < |s| ==> IsDigit(s[i])
  }

  /** The value of a run of decimal digits, read most significant first. */
  function DigitsValue(s: string): nat
    requires forall i :: 0 <= i < |s| ==> IsDigit(s[i])
    decreases |s|
  {
    if |s| == 0 then 0
    else
      var d := s[|s| - 1];
      assert IsDigit(d);
      DigitsValue(s[..|s| - 1]) * 10 + (d as int - '0' as int)
  }

  /** Decimal rendering of a natural number, as `${n}` produces it. */
  function NatToString(n: nat): (r: string)
    ensures IsDigits(r)
    ensures |r| > 1 ==> r[0] != '0'
    decreases n
  {
    if n < 10 then [DigitChar(n)]
    else NatToString(n / 10) + [DigitChar(n % 10)]
  }

  /** Reading back a rendered number gives the number. */
  lemma {:induction false} NatToStringRoundTrip(n: nat)
    ensures DigitsValue(NatToString(n)) == n
    decreases n
  {
    if n >= 10 {
      var s := NatToString(n);
      assert s[..|s| - 1] == NatToString(n / 10);
      NatToStringRoundTrip(n / 10);
    }
  }

  /** Decimal rendering of an integer, with a leading '-' for negatives. */
  function IntToString(i: int): (r: string)
    ensures |r| > 0
    ensures i >= 0 ==> IsDigits(r)
    ensures i < 0 ==> r[0] == '-' && IsDigits(r[1..])
  {
    if i < 0 then "-" + NatToString(-i) else NatToString(i)
  }

  /** Parses a non-empty string of decimal digits. */
  function ParseNat(s: string): (r: Option<nat>)
    ensures r.Some? <==> IsDigits(s)
  {
    if IsDigits(s) then Some(DigitsValue(s)) else None
  }

  lemma ParseNatRoundTrip(n: nat)
    ensures ParseNat(NatToString(n)) == Some(n)
  {
    NatToStringRoundTrip(n);
  }

  // ---------------------------------------------------------------- splitting

  /** Index of the first occurrence of `c` in `s`, or -1. */
  function IndexOf(s: string, c: char): (i: int)
    ensures -1 <= i < |s|
    ensures i >= 0 ==> s[i] == c && c !in s[..i]
    ensures i == -1 <==> c !in s
    decreases |s|
  {
    if |s| == 0 then -1
    else if s[0] == c then 0
    else
      var j := IndexOf(s[1..], c);
      if j < 0 then -1
      else assert s[..j + 1] == [s[0]] + s[1..][..j]; j + 1
  }

  /** Splits `s` around the first `c`. */
  function SplitAt(s: string, c: char): (r: Option<(string, string)>)
    ensures r.Some? <==> c in s
    ensures r.Some? ==> s == r.value.0 + [c] + r.value.1 && c !in r.value.0
  {
    var i := IndexOf(s, c);
    if i < 0 then None
    else assert s == s[..i] + [c] + s[i + 1..]; Some((s[..i], s[i + 1..]))
  }

  /** Splitting recovers the parts of a join whose left part is free of the separator. */
  lemma SplitAtJoin(a: string, c: char, b: string)
    requires c !in a
    ensures SplitAt(a + [c] + b, c) == Some((a, b))
  {
    var s := a + [c] + b;
    var r := SplitAt(s, c);
    assert c in s by { assert s[|a|] == c; }
    var a', b' := r.value.0, r.value.1;
    var i := IndexOf(s, c);
    assert forall k :: 0 <= k < |a| ==> s[k] == a[k];
    assert forall k :: 0 <= k < i ==> s[..i][k] == s[k];
    assert s[|a|] == c;
    assert i == |a|;
    assert a' == s[..|a|] == a;
    assert b' == s[|a| + 1..] == b;
  }

  /** Removes the prefix `p` from `s`, if `s` starts with it. */
  function StripPrefix(p: string, s: string): (r: Option<string>)
    ensures r.Some? <==> IsPrefix(p, s)
    ensures r.Some? ==> s == p + r.value
  {
    if IsPrefix(p, s) then assert s == p + s[|p|..]; Some(s[|p|..]) else None
  }

  /** Removes the suffix `p` from `s`, if `s` ends with it. */
  function StripSuffix(p: string, s: string): (r: Option<string>)
    ensures r.Some? <==> |p| <= |s| && s[|s| - |p|..] == p
    ensures r.Some? ==> s == r.value + p
  {
    if |p| <= |s| && s[|s| - |p|..] == p then
      assert s == s[..|s| - |p|] + p; Some(s[..|s| - |p|])
    else
      None
  }

  lemma StripPrefixJoin(p: string, s: string)
    ensures StripPrefix(p, p + s) == Some(s)
  {
    assert (p + s)[..|p|] == p;
    assert (p + s)[|p|..] == s;
  }

  lemma StripSuffixJoin(s: string, p: string)
    ensures StripSuffix(p, s + p) == Some(s)
  {
    var t := s + p;
    assert t[|t| - |p|..] == p;
    assert t[..|t| - |p|] == s;
  }

  /** A run of digits contains no separator character. */
  lemma DigitsHaveNo(s: string, c: char)
    requires IsDigits(s)
    requires !IsDigit(c)
    ensures c !in s
  {
  }
}

=== FILE: wrappers.dfy ===
/** Optional values: the model's stand-in for JavaScript's `undefined`/`null`. */
module Wrappers {

  datatype Option<+T> = None | Some(value: T) {

    /** Returns the value in Some, or a default value if None. */
    function GetOr(default: T): T {
      match this
      case Some(v) => v
      case None => default
    }
  }
}
